=== FILE: README.md ===
# Weekly master schedule — a Dafny model

This project models the schedule logic of the planweeklyai frontend. A user keeps one weekly
*master schedule*. It has a name, a daily start and end time, a list of active weekdays,
flexible tasks and mandatory (fixed-time) tasks. The model covers six areas:

- the seven-day calendar and the wrap-around day ranges of mandatory tasks;
- the projection of the master schedule onto one weekday, with its weekend policy;
- the four validation rules and the "HH:MM" time syntax;
- the time, duration and label helpers;
- the editor's pure state updates and its save gate;
- the totals on the day page, and the grouping of calendar events by date.

Everything is pure functions over immutable datatypes. One module per concern:

| module | file | models |
|---|---|---|
| `Sequences` | sequences.dfy | order-preserving filter, pointwise map, subsequences, strict sortedness |
| `Text` | text.dfy | decimal text, `padStart`, JavaScript's `%`, `trim`, `join`, splitting at a character |
| `Interfaces` | interfaces.dfy | `Day`, `Task`, `MandatoryTask`, `Schedule`, `DaySchedule`, `DaySelection` |
| `Calendar` | calendar.dfy | `DAYS_OF_WEEK`, `DAY_LABELS`, `isWeekend`, `isDayInRange` |
| `Clock` | clock.dfy | `isValidTime`, `parseTime`, `timeToMinutes`, `minutesToTime`, `isTimeRangeValid`, `formatTime` |
| `Durations` | durations.dfy | `getDurationInMinutes`, `getTaskDurationString` |
| `DaySelections` | day_selections.dfy | `createEmptyDaySelection`, `arrayToDaySelection`, `daySelectionToArray` |
| `Factories` | factories.dfy | `DEFAULT_COLORS`, `createEmptyTask`, `createEmptyMandatoryTask` |
| `Projection` | projection.dfy | `shouldShowTask`, `getDaySchedule` |
| `Validation` | validation.dfy | `validateSchedule` |
| `Labels` | labels.dfy | `getActiveDaysString` |
| `Dashboard` | dashboard.dfy | the editor's updaters, `handleSave`, the frequency choices |
| `DayView` | dayview.dfy | the day page: not-scheduled branch, totals, hour/minute split, weekend note, range label |
| `WeeklyEvents` | weekly_events.dfy | `groupEventsByDay` and the sorted date keys |

## Modelling decisions

- **Field names.** The editor component writes snake_case keys where the record types declare
  camelCase fields. On the schedule these are `active_days`, `mandatory_tasks`, `start_time` and
  `end_time` (ScheduleDashboard.tsx:33-107). The task card writes `preferred_time` and
  `on_weekends` (:343-344, :390-391). The mandatory-task card writes `start_time`, `end_time`,
  `start_day` and `end_day` (:434-469). The model has one datatype per record, with the camelCase
  fields of interfaces.ts. The editor's updaters and the fields of its patch records
  (`Dashboard.TaskPatch`, `Dashboard.MandatoryTaskPatch`) stand for those snake_case keys.
- **JavaScript arithmetic.** `Math.floor(x / 60)` is Dafny's `/` with a positive divisor.
  JavaScript's `%` keeps the sign of the dividend; it is written out as `Text.JsRemainder`.
  `n.toString()` is `Text.IntText`, and `padStart` is `Text.PadStart`.
- **Time syntax.** The `isValidTime` regular expression is a character-level predicate: one or
  two hour digits 0–23, a colon, then two minute digits 00–59. `parseTime` is applied only to
  valid times. `Clock.ParseTime` reads the characters directly, and
  `Clock.ParseTimeIsSplitNumber` shows that this agrees with splitting at ':' and reading
  both halves as numbers.
- **Durations** are any integers, because the editor stores `parseInt` results and a typed
  "-5" gets through. So the model keeps the negative cases and states what they do.
- **Object key order.** `Object.keys` order does not matter for `sortedDates`.
  `WeeklyEvents.SortedDatesUnique` proves the sorted list is determined by the key set alone.
- **Identifiers and clocks** are parameters. New ids come in as an argument and the save
  stamp as a `Timestamp`, so the factories and the save gate are deterministic.

## Model

These members define the frontend's functions themselves. They have no row of their own, because
the rows below state what they do:

- `DAYS_OF_WEEK`, `DAY_LABELS`: `Calendar.DaysOfWeek`, `Calendar.DayLabel`; the `Day` enum
  strings are `Calendar.DayName`.
- `isWeekend`: `Calendar.IsWeekend`. `isDayInRange`: `Calendar.IsDayInRange`.
- `isValidTime`: `Clock.IsValidTime`. `parseTime`: `Clock.ParseTime`. `timeToMinutes`:
  `Clock.TimeToMinutes`.
- `minutesToTime`: `Clock.MinutesToTime`. `formatTime`: `Clock.FormatTime`.
  `isTimeRangeValid`: `Clock.IsTimeRangeValid`.
- `getDurationInMinutes`: `Durations.DurationInMinutes`. `getTaskDurationString`:
  `Durations.TaskDurationString`.
- `createEmptyDaySelection`, `arrayToDaySelection`, `daySelectionToArray`:
  `DaySelections.EmptyDaySelection`, `DaySelections.ArrayToDaySelection`,
  `DaySelections.DaySelectionToArray`.
- `DEFAULT_COLORS`, `createEmptyTask`, `createEmptyMandatoryTask`: `Factories.DefaultColors`,
  `Factories.CreateEmptyTask`, `Factories.CreateEmptyMandatoryTask`.
- `shouldShowTask`: `Projection.ShouldShowTask`. `getDaySchedule`: `Projection.GetDaySchedule`.
- `validateSchedule`: `Validation.ValidateSchedule`. `getActiveDaysString`:
  `Labels.ActiveDaysString`.
- The editor's handlers: `Dashboard.SetName`, `Dashboard.SetTime`, `Dashboard.SetDaySelected`,
  the task and mandatory-task updaters, `Dashboard.FrequencyOptions` and `Dashboard.HandleSave`.
- The day page's `totalDuration` reduce: `DayView.TotalDuration`. Its hour/minute split:
  `DayView.SplitDuration` and `DayView.DurationSummary`. `showWeekendNote`:
  `DayView.ShowWeekendNote`. The day-range line: `DayView.RangeLabel`. The whole page:
  `DayView.RenderDay`.
- `groupEventsByDay`: `WeeklyEvents.GroupEventsByDay`, with the date key
  `WeeklyEvents.DateKey`. `sortedDates`: `WeeklyEvents.SortedDates`.

| member | source | states |
|---|---|---|
| Calendar.DayIndex | frontend/src/utils/scheduleUtils.ts:18-26 | each day's position in `DAYS_OF_WEEK` is below seven and indexes back to that day |
| Calendar.DaysOfWeekEnumerates | frontend/src/utils/interfaces.ts:2-10 | the day list has seven entries, holds every `Day`, and positions and days correspond one to one |
| Calendar.DayIndexInjective | frontend/src/utils/scheduleUtils.ts:154-157 | two days with the same `indexOf` position are the same day |
| Calendar.DaysOfWeekSorted | frontend/src/utils/scheduleUtils.ts:18-26 | `DAYS_OF_WEEK` lists Monday to Sunday strictly in calendar order |
| Calendar.ReadDayLabel | frontend/src/utils/scheduleUtils.ts:28-36 | a text read as a day is that day's display name |
| Calendar.ReadDayName | frontend/src/utils/interfaces.ts:2-10 | a text read as a day is that day's enum string |
| Calendar.DayLabelRoundTrip | frontend/src/utils/scheduleUtils.ts:28-36 | every display name reads back as its own day and holds no ',' |
| Calendar.DayNameRoundTrip | frontend/src/utils/interfaces.ts:2-10 | every enum string reads back as its own day and is at least six capital letters |
| Calendar.WeekendIsEndOfWeek | frontend/src/utils/scheduleUtils.ts:246-248 | a day is a weekend day exactly when it is one of the last two in calendar order |
| Calendar.IsDayInRange | frontend/src/utils/scheduleUtils.ts:153-165 | a day is in range exactly when its forward distance from the start is at most the end's distance, covering plain and wrap-around ranges |
| Calendar.SingleDayRange | frontend/src/utils/scheduleUtils.ts:159-160 | a range that starts and ends on one day holds that day and no other |
| Calendar.RangeHoldsEndpoints | frontend/src/utils/scheduleUtils.ts:153-165 | every range holds its first and its last day |
| Calendar.Next | frontend/src/utils/scheduleUtils.ts:18-26 | the following day is one position further on, with Sunday followed by Monday |
| Calendar.WalkSteps | frontend/src/utils/scheduleUtils.ts:153-165 | walking n ≤ 7 days forward visits the positions start, start+1, … taken round the week |
| Calendar.WalkIsDuplicateFree | frontend/src/utils/scheduleUtils.ts:153-165 | a walk of at most seven days never meets a day twice |
| Calendar.RangeIsForwardWalk | frontend/src/utils/scheduleUtils.ts:153-165 | a day is in range exactly when walking forward from the start day to the end day meets it |
| Calendar.WrapAroundExample | frontend/src/utils/scheduleUtils.ts:162-163 | Friday to Monday holds Saturday and Monday but not Wednesday |
| Clock.ParseTime | frontend/src/utils/scheduleUtils.ts:47-50 | a valid time yields an hour below 24 and a minute below 60 |
| Clock.ValidTimeParts | frontend/src/utils/scheduleUtils.ts:47-50 | a valid time is its hour digits, ':', then its minute digits, and splitting at the first ':' gives back those two parts |
| Clock.ParseTimeIsSplitNumber | frontend/src/utils/scheduleUtils.ts:47-50 | reading a valid time equals splitting it at ':' and reading each side as a decimal number |
| Clock.ParseClockText | frontend/src/utils/scheduleUtils.ts:194-197 | every padded "HH:MM", and every one-digit-hour "H:MM", of a real clock time is valid and reads back as that time |
| Clock.ClockTextInjective | frontend/src/utils/scheduleUtils.ts:57-61 | different clock times have different padded texts |
| Clock.ValidTimeIsClockText | frontend/src/utils/scheduleUtils.ts:194-197 | a valid time is the padded text of the time it denotes, or its one-digit-hour form, and is five characters exactly when padded |
| Clock.ValidTimeCharacterization | frontend/src/utils/scheduleUtils.ts:194-197 | a text is valid exactly when it is "HH:MM" or "H:MM" for some hour below 24 and minute below 60 |
| Clock.TimeToMinutes | frontend/src/utils/scheduleUtils.ts:52-55 | a valid time falls within the day: 0 ≤ minutes < 1440 |
| Clock.MinutesToTimeOfDay | frontend/src/utils/scheduleUtils.ts:57-61 | a minute of the day formats as the padded text of its whole hours and its remaining minutes |
| Clock.MinutesToTimeRoundTrip | frontend/src/utils/scheduleUtils.ts:52-61 | for 0 ≤ m < 1440, `minutesToTime(m)` is a five-character valid time that converts back to m |
| Clock.MinutesToTimeOfClock | frontend/src/utils/scheduleUtils.ts:57-61 | formatting hours·60+minutes gives the padded text of those hours and minutes |
| Clock.PaddedFormOfValidTime | frontend/src/utils/scheduleUtils.ts:47-61 | the padded text of a valid time's value is the time itself, with "0" prefixed when the hour had one digit |
| Clock.TimeToMinutesRoundTrip | frontend/src/utils/scheduleUtils.ts:52-61 | converting a valid time to minutes and back restores it, zero-padded to "HH:MM" |
| Clock.MinutesToTimeEndOfDay | frontend/src/utils/scheduleUtils.ts:57-61 | minute 1440 formats as "24:00", which the validator rejects, so the round trip stops at 1439 |
| Clock.MinutesToTimeNegative | frontend/src/utils/scheduleUtils.ts:57-61 | a negative minute count keeps JavaScript's signs: -30 formats as "-1:-30" |
| Clock.IsTimeRangeValid | frontend/src/utils/scheduleUtils.ts:199-202 | a range is accepted exactly when both times are valid and the start comes before the end on the clock (an earlier hour, or the same hour and an earlier minute), padded or not |
| Clock.MixedHourRange | frontend/src/utils/scheduleUtils.ts:199-202 | "9:00" to "10:00" is accepted and the reverse is not, so one-digit and two-digit hours compare by value |
| Clock.TimeRangeOrdersMinutes | frontend/src/utils/scheduleUtils.ts:199-202 | between two minutes of the day, the range of their texts is accepted exactly when the first is earlier |
| Clock.EmptyTimeRangeInvalid | frontend/src/utils/scheduleUtils.ts:199-202 | a range that starts and ends at the same text is never accepted |
| Clock.ReadTwelveHourText | frontend/src/utils/scheduleUtils.ts:39-45 | a 12-hour text has the "H:MM AM/PM" shape, its hour is the plain decimal text of the display hour, its minutes read back as the given minutes, its period is "PM" when asked and "AM" otherwise, and it reads back as its hour, minutes and period |
| Clock.TwelveHourArithmetic | frontend/src/utils/scheduleUtils.ts:42-43 | the display hour `hours % 12 \|\| 12` lies in 1..12 and, together with the period, recovers the 24-hour hour |
| Clock.FormatTimeRoundTrip | frontend/src/utils/scheduleUtils.ts:39-45 | the 12-hour display of a valid time writes its hour as a plain number from 1 to 12 and its minutes as the time's minutes (below 60), says "AM" before noon and "PM" from noon on, and reads back as the same minute of the day |
| Clock.HalfPastMidnight | frontend/src/utils/scheduleUtils.ts:42-43 | "00:30" displays as "12:30 AM", not as hour 0 |
| Clock.FivePastOne | frontend/src/utils/scheduleUtils.ts:42-43 | "13:05" displays as "1:05 PM" |
| Text.NatText | frontend/src/utils/scheduleUtils.ts:44 | a number's decimal text is non-empty digits without a leading zero, one digit exactly below ten |
| Text.ParseNatText | frontend/src/utils/scheduleUtils.ts:48 | reading the decimal text of n gives n |
| Text.NatTextOfDigits | frontend/src/utils/scheduleUtils.ts:71-73 | a digit text without a leading zero is the decimal text of its own value |
| Text.IntTextRoundTrip | frontend/src/utils/scheduleUtils.ts:57-61 | the decimal text of any integer, negative ones included, has the digits-after-optional-'-' shape and reads back as that integer |
| Text.JsRemainder | frontend/src/utils/scheduleUtils.ts:59 | JavaScript's remainder differs from the dividend by a multiple of b, lies in [0, b) for a non-negative dividend and in (-b, 0] for a negative one: the truncating remainder and no other |
| Text.PadStartFacts | frontend/src/utils/scheduleUtils.ts:60 | `padStart` ends with the given text and fills the front with the pad character |
| Text.ParsePad2 | frontend/src/utils/scheduleUtils.ts:60 | a number below 100 padded to two digits reads back as itself |
| Text.DropFront | frontend/src/utils/scheduleUtils.ts:207 | what is dropped is the longest prefix of p characters: the rest is a suffix that does not start with one |
| Text.DropBack | frontend/src/utils/scheduleUtils.ts:207 | what is dropped is the longest suffix of p characters: the rest is a prefix that does not end with one |
| Text.Window | frontend/src/utils/scheduleUtils.ts:207 | cutting p characters off the front and then the back leaves a slice with only p characters around it |
| Text.TrimBounds | frontend/src/utils/scheduleUtils.ts:207 | the trimmed text is the input's slice from the first kept character on, with only whitespace before and after it |
| Text.TrimSpec | frontend/src/utils/scheduleUtils.ts:207 | trimming keeps a contiguous piece that neither begins nor ends in whitespace, everything cut off before and after it is whitespace, and nothing is left exactly when the text is all whitespace |
| Text.SplitAtFirst | frontend/src/utils/scheduleUtils.ts:41 | splitting x + c + y at the first c, when x has no c, gives back x and y |
| Text.BeforeAfter | frontend/src/utils/scheduleUtils.ts:71-73 | a text holding c is its part before the first c, that c, and its part after |
| Text.SplitWithoutSeparator | frontend/src/utils/scheduleUtils.ts:190 | a text without ", " is one piece, a bare ',' included |
| Text.SplitListStep | frontend/src/utils/scheduleUtils.ts:190 | a first piece without ',' in front of ", " splits off whole, leaving the pieces of the rest |
| Text.JoinCons | frontend/src/utils/scheduleUtils.ts:190 | joining two or more pieces puts ", " between the first piece and the join of the rest |
| Text.JoinFrontChar | frontend/src/utils/scheduleUtils.ts:190 | a character put in front of the first piece ends up in front of the joined text |
| Text.SplitJoin | frontend/src/utils/scheduleUtils.ts:190 | joining pieces without ',' by ", " and cutting the result at every ", " (and nowhere else) gives back exactly those pieces |
| Text.JoinSplit | frontend/src/utils/scheduleUtils.ts:190 | for every text, joining its ", "-separated pieces with ", " gives the text back |
| Durations.DurationStringRoundTrip | frontend/src/utils/scheduleUtils.ts:69-74 | for a non-negative duration, the "Mm" / "Hh" / "Hh Mm" text reads back as the same hours and minutes |
| Durations.DurationStringInjective | frontend/src/utils/scheduleUtils.ts:69-74 | different non-negative durations display differently |
| Durations.ReadNumber | frontend/src/utils/scheduleUtils.ts:71-73 | a number is read exactly from a digit text without a leading zero, and that text is the number's decimal text |
| Durations.ReadDurationCanonical | frontend/src/utils/scheduleUtils.ts:69-74 | every text the reader accepts is the display text of what it reads: "Mm" only without hours, "Hh" only without minutes, "Hh Mm" otherwise, and no other spelling |
| Durations.ReadHoursFormCanonical | frontend/src/utils/scheduleUtils.ts:72-73 | an accepted text with an 'h' is the "Hh" or "Hh Mm" display text of what it reads |
| Durations.ReadMinutesFormCanonical | frontend/src/utils/scheduleUtils.ts:71 | an accepted text without an 'h' is the "Mm" display text of no hours and its minutes |
| Durations.HoursFormParts | frontend/src/utils/scheduleUtils.ts:72-73 | an accepted text with an 'h' has non-zero hours before it, and after it either nothing (no minutes) or " Mm" with non-zero minutes |
| Durations.AssembleHoursAndMinutes | frontend/src/utils/scheduleUtils.ts:73 | hours, 'h', a space, minutes and 'm' in display form is the display text of those hours and minutes |
| Durations.NoZeroHours | frontend/src/utils/scheduleUtils.ts:71 | half an hour shows as "30m", and "0h 30m" reads as no duration |
| DaySelections.EmptyDaySelection | frontend/src/utils/scheduleUtils.ts:227-232 | the empty selection has an entry for every day and none ticked |
| DaySelections.ArrayToDaySelection | frontend/src/utils/scheduleUtils.ts:238-244 | the selection has an entry for every day, ticked exactly for the listed days |
| DaySelections.DaySelectionToArray | frontend/src/utils/scheduleUtils.ts:234-236 | the list holds exactly the ticked days, strictly in calendar order |
| DaySelections.ListRoundTrip | frontend/src/utils/scheduleUtils.ts:234-244 | list → selection → list yields the duplicate-free, calendar-ordered list of the days listed |
| DaySelections.SortedListRoundTrip | frontend/src/utils/scheduleUtils.ts:234-244 | a list already in strict calendar order survives list → selection → list unchanged |
| DaySelections.SelectionRoundTrip | frontend/src/utils/scheduleUtils.ts:227-244 | a selection with an entry for every day survives selection → list → selection unchanged |
| Factories.CreateEmptyTask | frontend/src/utils/scheduleUtils.ts:102-113 | a new task has the given id, no name, lasts 60 minutes, shows exactly on weekdays, once a week, medium priority, first palette colour |
| Factories.CreateEmptyMandatoryTask | frontend/src/utils/scheduleUtils.ts:115-126 | a new mandatory task has the given id, no name or location, covers exactly Monday to Friday, runs from the padded text of minute 540 ("09:00") to that of minute 1020 ("17:00"), second palette colour |
| Factories.EmptyMandatoryTaskHours | frontend/src/utils/scheduleUtils.ts:119-120 | the new mandatory task runs from minute 540 to 1020, a valid time range |
| Factories.EmptyTaskDisplay | frontend/src/utils/scheduleUtils.ts:106 | the new task's duration displays as "1h" |
| Projection.GetDaySchedule | frontend/src/utils/scheduleUtils.ts:129-150 | no result exactly when the day is inactive; otherwise the day and times are copied and both lists are order-preserving subsequences that keep every copy of each task that passes the filter and no copy of the others |
| Projection.WeekdayShowsAllTasks | frontend/src/utils/scheduleUtils.ts:250-255 | on an active weekday the projected flexible tasks are all the tasks, in order |
| Projection.WeekendShowsWeekendTasks | frontend/src/utils/scheduleUtils.ts:250-253 | on an active weekend day the projected tasks are exactly those marked for weekends, each with as many copies as the master list holds |
| Projection.MandatoryTasksFollowWalk | frontend/src/utils/scheduleUtils.ts:139-141 | a mandatory task shows on an active day exactly when the walk from its first day to its last meets that day |
| Projection.ProjectAppendedTask | frontend/src/utils/scheduleUtils.ts:136 | a task appended to the master list appears at the end of a day's list exactly when that day shows it |
| Projection.ProjectAppendedMandatoryTask | frontend/src/utils/scheduleUtils.ts:139-141 | a mandatory task appended to the master list appears at the end of a day's list exactly when its range holds the day |
| Validation.ValidateSchedule | frontend/src/utils/scheduleUtils.ts:204-224 | each message is reported exactly when its rule fails, messages come in rule order without repeats, and there are none exactly when all four rules hold |
| Validation.MessagesDistinct | frontend/src/utils/scheduleUtils.ts:208-220 | the four messages are pairwise different, so each names one rule |
| Validation.ValidationReadsOnlyRuleFields | frontend/src/utils/scheduleUtils.ts:204-224 | schedules agreeing on name, times and the three list lengths get the same messages |
| Validation.AllRulesFail | frontend/src/utils/scheduleUtils.ts:204-224 | a blank schedule with equal times and no days or tasks gets all four messages in order |
| Labels.NoDaysLabel | frontend/src/utils/scheduleUtils.ts:174 | "No days selected" is shown exactly when no day is active |
| Labels.WeekdaysLabel | frontend/src/utils/scheduleUtils.ts:176-183 | "Weekdays" is shown exactly when five days are active and they are Monday to Friday |
| Labels.WeekendsLabel | frontend/src/utils/scheduleUtils.ts:184-188 | "Weekends" is shown exactly when two days are active and they are Saturday and Sunday |
| Labels.EveryDayLabel | frontend/src/utils/scheduleUtils.ts:175 | for a list without repeats, "Every day" is shown exactly when every day is active |
| Labels.RepeatedDayIsEveryDay | frontend/src/utils/scheduleUtils.ts:175 | the count alone decides "Every day": seven Mondays get it |
| Labels.ListedLabelShape | frontend/src/utils/scheduleUtils.ts:190 | a joined list of day names begins with a day's initial and is none of the four shorthands |
| Labels.ReadDayLabels | frontend/src/utils/scheduleUtils.ts:190 | a list of names read as days has one day per name, each with that display name |
| Labels.ReadDayLabelsInverse | frontend/src/utils/scheduleUtils.ts:190 | reading back the display names of a list of days gives that list, order and repeats included |
| Labels.ListedDaysRoundTrip | frontend/src/utils/scheduleUtils.ts:190 | the ", "-joined display names of a non-empty list read back as exactly that list |
| Labels.ActiveDaysStringReadBack | frontend/src/utils/scheduleUtils.ts:172-191 | when no shorthand applies the label reads back as exactly the active days, in order and with repeats; when one applies the label reads as no list of days |
| Labels.ShorthandsNameNoDays | frontend/src/utils/scheduleUtils.ts:173-188 | none of the four shorthand texts reads as a list of days |
| Labels.NotADayName | frontend/src/utils/scheduleUtils.ts:190 | a text without ',' that is no day's display name reads as no list of days |
| Labels.NoCommaIsOnePiece | frontend/src/utils/scheduleUtils.ts:190 | a text without ',' is one piece of the list |
| Labels.BareCommaNamesNoDays | frontend/src/utils/scheduleUtils.ts:190 | two day names separated by a bare ',' read as no list of days: only ", " separates |
| Labels.ReadDaysCanonical | frontend/src/utils/scheduleUtils.ts:190 | a text that reads as days is exactly those days' display names joined by ", " |
| Labels.ActiveDaysStringCanonical | frontend/src/utils/scheduleUtils.ts:172-191 | a text that reads as a list of days with no shorthand is the label of every schedule with exactly those active days |
| Dashboard.SetName | frontend/src/components/ScheduleDashboard.tsx:29-31 | renaming sets the name and changes no other field |
| Dashboard.SetTime | frontend/src/components/ScheduleDashboard.tsx:33-35 | a time change sets the named time and changes no other field |
| Dashboard.SetDaySelected | frontend/src/components/ScheduleDashboard.tsx:37-44 | ticking appends the day after the unchanged old list; unticking keeps an in-order subsequence holding every copy of every other listed day and no copy of that one; nothing else changes |
| Dashboard.CheckBoxFollowsToggle | frontend/src/components/ScheduleDashboard.tsx:37-44 | after a toggle the check boxes are the old ones with that day's box set to the new state |
| Dashboard.SelectingTwiceRepeats | frontend/src/components/ScheduleDashboard.tsx:39-40 | ticking an already active day lists it twice |
| Dashboard.AddTask | frontend/src/components/ScheduleDashboard.tsx:46-52 | adding appends exactly the new default task and changes nothing else |
| Dashboard.UpdateTask | frontend/src/components/ScheduleDashboard.tsx:54-61 | the length and order stay; tasks with the id get the patched fields, and every other task is unchanged |
| Dashboard.RemoveTask | frontend/src/components/ScheduleDashboard.tsx:63-68 | removal keeps, in order, every copy of every task with another id and no task with that id, and nothing else changes |
| Dashboard.AddMandatoryTask | frontend/src/components/ScheduleDashboard.tsx:70-76 | adding appends exactly the new default mandatory task and changes nothing else |
| Dashboard.UpdateMandatoryTask | frontend/src/components/ScheduleDashboard.tsx:78-85 | the length and order stay; mandatory tasks with the id get the patched fields, and every other one is unchanged |
| Dashboard.RemoveMandatoryTask | frontend/src/components/ScheduleDashboard.tsx:87-92 | removal keeps, in order, every copy of every mandatory task with another id and none with that id |
| Dashboard.RemoveUndoesAdd | frontend/src/components/ScheduleDashboard.tsx:46-68 | removing the id just added leaves what removing it before would have; with a fresh id it restores the schedule |
| Dashboard.RemoveUndoesAddMandatory | frontend/src/components/ScheduleDashboard.tsx:70-92 | the same undo property for mandatory tasks |
| Dashboard.RemoveAfterUpdate | frontend/src/components/ScheduleDashboard.tsx:54-68 | removing an id after a patch that keeps ids gives the same result as removing it without the patch |
| Dashboard.EmptyPatchChangesNothing | frontend/src/components/ScheduleDashboard.tsx:54-85 | an update with no fields leaves the schedule as it was |
| Dashboard.AddedTaskOnDays | frontend/src/components/ScheduleDashboard.tsx:46-52 | a newly added task appears at the end of every active weekday's list and on no weekend day |
| Dashboard.AddedMandatoryTaskOnDays | frontend/src/components/ScheduleDashboard.tsx:70-76 | a newly added mandatory task appears at the end of every active weekday's list and on no weekend day |
| Dashboard.FrequencyOptions | frontend/src/components/ScheduleDashboard.tsx:289 | the choices are exactly 1..(number of active days), ascending, one each |
| Dashboard.DefaultFrequencyOffered | frontend/src/components/ScheduleDashboard.tsx:364 | the new task's frequency is among the choices exactly when some day is active |
| Dashboard.HandleSave | frontend/src/components/ScheduleDashboard.tsx:94-105 | the errors shown are the validator's; a save happens exactly when the schedule is well formed, and the saved schedule differs only in `updatedAt` |
| Dashboard.SavedScheduleIsValid | frontend/src/components/ScheduleDashboard.tsx:94-105 | whatever is saved passes validation |
| Dashboard.RenameAffectsOnlyNameRule | frontend/src/components/ScheduleDashboard.tsx:29-31 | after a rename the name message depends on the new name alone, and every other message is as before |
| DayView.RenderDay | frontend/src/components/DayScheduleView.tsx:19-35 | the "no schedule" notice appears exactly when the day is inactive; the title is always the day's label |
| DayView.TaskCountBound | frontend/src/components/DayScheduleView.tsx:37 | the task count is at most the master lists' size, and equals it exactly when every task shows and every range holds the day |
| DayView.EmptyStateMeansNothingScheduled | frontend/src/components/DayScheduleView.tsx:90 | on an active day the empty state shows exactly when no task shows on the day and no mandatory task's range holds it |
| DayView.TotalDurationConcat | frontend/src/components/DayScheduleView.tsx:38-40 | the total of two lists in sequence is the sum of their totals |
| DayView.TotalDurationBounds | frontend/src/components/DayScheduleView.tsx:38-40 | with no negative task, the total is non-negative and at least each task's length |
| DayView.FilterSplitsTotal | frontend/src/components/DayScheduleView.tsx:38-40 | splitting the tasks by a test and its negation splits the total into the two parts |
| DayView.WeekdayTotal | frontend/src/components/DayScheduleView.tsx:38-40 | on an active weekday the total counts every flexible task of the schedule |
| DayView.WeekendTotal | frontend/src/components/DayScheduleView.tsx:38-40 | on an active weekend day the total is the schedule's total less the weekday-only tasks |
| DayView.SplitDuration | frontend/src/components/DayScheduleView.tsx:55 | a non-negative total splits into hours and under-sixty minutes that rebuild it; a negative total that is not whole hours shows one hour more than it holds |
| DayView.ShownSplitRebuildsTotal | frontend/src/components/DayScheduleView.tsx:55 | the hours and minutes on the page rebuild a non-negative total, with fewer than sixty minutes |
| DayView.NegativeDurationSummary | frontend/src/components/DayScheduleView.tsx:55 | a total of -1 minute displays as "-1h -1m total" |
| DayView.NoWeekendNoteShown | frontend/src/components/DayScheduleView.tsx:109-110 | no task listed on a page carries the weekend note, since the projection keeps those tasks off weekend days |
| DayView.RangeLabelEvery | frontend/src/components/DayScheduleView.tsx:176-179 | the range line starts with "Every" exactly when start and end are the same day, and that day is then the only one covered |
| DayView.ReadEveryLabel | frontend/src/components/DayScheduleView.tsx:177 | "Every " followed by a day's enum string reads back as that day as both start and end |
| DayView.ReadSpanLabel | frontend/src/components/DayScheduleView.tsx:178 | "<start> - <end>" with enum strings reads back as the two days in order |
| DayView.RangeLabelRoundTrip | frontend/src/components/DayScheduleView.tsx:176-179 | the range line reads back as exactly the task's start and end day: "Every X" names the start day, the other form names start then end |
| WeeklyEvents.DateKey | frontend/src/components/WeeklyEventsView.tsx:12 | the key is the first ten characters of the start, or all of a shorter start |
| WeeklyEvents.GroupFrom | frontend/src/components/WeeklyEventsView.tsx:11-16 | each step of the `reduce` appends the events of a date, in input order, to that date's group, and creates a key exactly when the date occurs |
| WeeklyEvents.GroupEventsByDay | frontend/src/components/WeeklyEventsView.tsx:10-17 | each date's group is exactly the events with that date in input order, and a key exists exactly for the dates that occur |
| WeeklyEvents.GroupsPartitionEvents | frontend/src/components/WeeklyEventsView.tsx:10-17 | keys are exactly the events' dates, no group is empty, groups are subsequences of the input, and each event lies in its own date's group and only there |
| WeeklyEvents.GroupSizesSumToCount | frontend/src/components/WeeklyEventsView.tsx:10-17 | over any list naming each key once, the group sizes add up to the number of events |
| WeeklyEvents.DateKeys | frontend/src/components/WeeklyEventsView.tsx:21 | `Object.keys` lists each date that occurs exactly once |
| WeeklyEvents.LexLessAsymmetric | frontend/src/components/WeeklyEventsView.tsx:21 | of two strings at most one sorts first |
| WeeklyEvents.LexLessTotal | frontend/src/components/WeeklyEventsView.tsx:21 | of two different strings one sorts first |
| WeeklyEvents.LexLessTransitive | frontend/src/components/WeeklyEventsView.tsx:21 | the string order is transitive |
| WeeklyEvents.Sort | frontend/src/components/WeeklyEventsView.tsx:21 | sorting yields a strictly ascending list with the same members |
| WeeklyEvents.SortedDatesAreTheKeys | frontend/src/components/WeeklyEventsView.tsx:21 | the sorted dates are the grouping's keys, each once, in ascending order |
| WeeklyEvents.SortedDatesUnique | frontend/src/components/WeeklyEventsView.tsx:21 | any strictly ascending list of the keys is the sorted list, so the enumeration order of the keys does not matter |
| WeeklyEvents.ColumnsHoldEveryEvent | frontend/src/components/WeeklyEventsView.tsx:21-30 | the columns shown, date by date, hold as many events as were given |

## Left out

- `getSchedule` and `saveSchedule`, and the page components that fetch: network I/O.
- `generateUUID` and `getRandomColor`: randomness. Ids are parameters. The palette and the
  factories' fixed colours are modelled.
- `Date` values (`createdAt`, `updatedAt`): opaque timestamps. The save stamp is a parameter.
- The JSX markup, CSS classes, the priority badge colours and the capitalised preferred-time
  text on the day page: presentation only.
- The 12-hour times on the day page: the header (DayScheduleView.tsx:50) and each mandatory
  task's line (DayScheduleView.tsx:167). `formatTime` is modelled only on valid times. Neither
  call site checks its times first, and `validateSchedule` never looks at mandatory tasks'
  times. On a time without ':' the minutes are `undefined` and `minutes.toString()` throws. No
  model is given for that.
- The locale-dependent date and time formatting of the daily events box: it depends on the
  runtime's `Intl` data.
- The backend (OAuth, database, Google Calendar sync, JWT handling, stub generators): foreign
  libraries and I/O.
- A "schedule unchanged" check before saving: no such function exists, and the save path
  saves whenever validation passes.
- `getActiveDays`: it returns the schedule's list unchanged, so it is the field accessor.
- `parseTime` and `timeToMinutes` on malformed text, which yields `NaN`: in the frontend they
  are reached only from `isTimeRangeValid`, after `isValidTime` succeeds
  (scheduleUtils.ts:53, :199-202). `formatTime` is reached without that check; see the line
  above.
- Strings are sequences of Unicode scalar values. JavaScript's `slice` and `sort` work on
  UTF-16 code units, and the two differ only for characters outside the Basic Multilingual
  Plane.
- Own properties with special names (`__proto__`) on the grouping record: the keys are dates.
- Fractional durations and `parseInt` returning `NaN` (which the editor replaces with 0):
  durations are integers.
- Clock.ParseTime: requires a valid time, because `isTimeRangeValid` and `timeToMinutes` are
  its only callers and they pass only times that passed `isValidTime`.
- Clock.TimeToMinutes: requires a valid time, for the same reason.
- Clock.FormatTime: requires a valid time. The day page calls it on unchecked times, as noted
  above.
- Labels.EveryDayLabel: stated for lists without repeats. With repeats the shorthand looks at
  the count alone, as `Labels.RepeatedDayIsEveryDay` shows.
- Calendar.WalkSteps: stated for walks of at most seven days, the longest a range can need.
- Durations.DurationStringRoundTrip: stated for non-negative hours and minutes. A negative
  part prints with a '-' that the reader does not accept.
- DayView.ShownSplitRebuildsTotal: stated for non-negative totals. `DayView.SplitDuration`
  states the negative case.

=== FILE: calendar.dfy ===
/** The fixed Monday..Sunday week: ordinal lookup, labels, the weekend test and
    membership in an inclusive day range that may wrap past Sunday. */
module Calendar {
  import opened Interfaces

  /** `DAYS_OF_WEEK`: the week in calendar order. */
  const DaysOfWeek: seq<Day> := [Monday, Tuesday, Wednesday, Thursday, Friday, Saturday, Sunday]

  /** The position of `d` in `DaysOfWeek` (`dayOrder.indexOf(d)`), Monday = 0. */
  function DayIndex(d: Day): (i: nat)
    ensures i < 7 && DaysOfWeek[i] == d
  {
    match d
    case Monday => 0
    case Tuesday => 1
    case Wednesday => 2
    case Thursday => 3
    case Friday => 4
    case Saturday => 5
    case Sunday => 6
  }

  /** `DaysOfWeek` lists every day exactly once, each at its own index. */
  lemma DaysOfWeekEnumerates()
    ensures |DaysOfWeek| == 7
    ensures forall i :: 0 <= i < 7 ==> DayIndex(DaysOfWeek[i]) == i
    ensures forall d: Day :: d in DaysOfWeek
  {
    forall d: Day
      ensures d in DaysOfWeek
    {
      assert DaysOfWeek[DayIndex(d)] == d;
    }
  }

  /** Different days have different indices. */
  lemma DayIndexInjective(a: Day, b: Day)
    ensures DayIndex(a) == DayIndex(b) ==> a == b
  {
    assert DaysOfWeek[DayIndex(a)] == a && DaysOfWeek[DayIndex(b)] == b;
  }

  /** Strict calendar order. */
  predicate DayBefore(a: Day, b: Day)
  {
    DayIndex(a) < DayIndex(b)
  }

  /** `DaysOfWeek` is in strict calendar order. */
  lemma DaysOfWeekSorted()
    ensures forall i, j :: 0 <= i < j < |DaysOfWeek| ==> DayBefore(DaysOfWeek[i], DaysOfWeek[j])
  {
    DaysOfWeekEnumerates();
  }

  /** `DAY_LABELS`: the display name of a day. */
  function DayLabel(d: Day): string
  {
    match d
    case Monday => "Monday"
    case Tuesday => "Tuesday"
    case Wednesday => "Wednesday"
    case Thursday => "Thursday"
    case Friday => "Friday"
    case Saturday => "Saturday"
    case Sunday => "Sunday"
  }

  /** The string value of the `Day` enum member, which is what templates print for a raw day. */
  function DayName(d: Day): string
  {
    match d
    case Monday => "MONDAY"
    case Tuesday => "TUESDAY"
    case Wednesday => "WEDNESDAY"
    case Thursday => "THURSDAY"
    case Friday => "FRIDAY"
    case Saturday => "SATURDAY"
    case Sunday => "SUNDAY"
  }

  /** Reads a display name back to its day; `None` for any other text. */
  function ReadDayLabel(s: string): (r: Option<Day>)
    ensures r.Some? ==> DayLabel(r.value) == s
  {
    if s == "Monday" then Some(Monday)
    else if s == "Tuesday" then Some(Tuesday)
    else if s == "Wednesday" then Some(Wednesday)
    else if s == "Thursday" then Some(Thursday)
    else if s == "Friday" then Some(Friday)
    else if s == "Saturday" then Some(Saturday)
    else if s == "Sunday" then Some(Sunday)
    else None
  }

  /** Reads an enum string back to its day; `None` for any other text. */
  function ReadDayName(s: string): (r: Option<Day>)
    ensures r.Some? ==> DayName(r.value) == s
  {
    if s == "MONDAY" then Some(Monday)
    else if s == "TUESDAY" then Some(Tuesday)
    else if s == "WEDNESDAY" then Some(Wednesday)
    else if s == "THURSDAY" then Some(Thursday)
    else if s == "FRIDAY" then Some(Friday)
    else if s == "SATURDAY" then Some(Saturday)
    else if s == "SUNDAY" then Some(Sunday)
    else None
  }

  /** A display name reads back as its day, and holds no ',' or space (so it can sit in a ", "
      list). */
  lemma DayLabelRoundTrip(d: Day)
    ensures ReadDayLabel(DayLabel(d)) == Some(d)
    ensures ',' !in DayLabel(d) && ' ' !in DayLabel(d)
  {
  }

  /** An enum string reads back as its day; it is at least six capital letters long. */
  lemma DayNameRoundTrip(d: Day)
    ensures ReadDayName(DayName(d)) == Some(d)
    ensures |DayName(d)| >= 6 && forall i :: 0 <= i < |DayName(d)| ==> 'A' <= DayName(d)[i] <= 'Z'
  {
  }

  /** Saturday and Sunday. */
  predicate IsWeekend(d: Day)
  {
    d == Saturday || d == Sunday
  }

  /** The weekend is exactly the last two days of the calendar order. */
  lemma WeekendIsEndOfWeek(d: Day)
    ensures IsWeekend(d) <==> DayIndex(d) >= 5
  {
  }

  /** A position `i` (0 <= i < 14) on two laps of the seven-day cycle, brought back onto one lap. */
  function Wrap(i: int): int
  {
    if i >= 7 then i - 7 else i
  }

  /** How many steps forward from `a` reach `b` on the seven-day cycle. */
  function Offset(a: Day, b: Day): (k: nat)
    ensures k < 7
  {
    Wrap(DayIndex(b) - DayIndex(a) + 7)
  }

  /** Membership of `day` in the inclusive range `startDay`..`endDay`; when the end comes
      before the start in calendar order the range wraps past Sunday. */
  function IsDayInRange(day: Day, startDay: Day, endDay: Day): (r: bool)
    ensures r <==> Offset(startDay, day) <= Offset(startDay, endDay)
  {
    var dayIndex := DayIndex(day);
    var startIndex := DayIndex(startDay);
    var endIndex := DayIndex(endDay);
    if startIndex <= endIndex then
      dayIndex >= startIndex && dayIndex <= endIndex
    else
      dayIndex >= startIndex || dayIndex <= endIndex
  }

  /** A range that starts and ends on the same day holds that day only. */
  lemma SingleDayRange(day: Day, startDay: Day)
    ensures IsDayInRange(day, startDay, startDay) <==> day == startDay
  {
    assert DaysOfWeek[DayIndex(day)] == day;
  }

  /** The range always holds its own endpoints. */
  lemma RangeHoldsEndpoints(startDay: Day, endDay: Day)
    ensures IsDayInRange(startDay, startDay, endDay)
    ensures IsDayInRange(endDay, startDay, endDay)
  {
  }

  /** The day after `d`, Sunday being followed by Monday. */
  function Next(d: Day): (n: Day)
    ensures DayIndex(n) == Wrap(DayIndex(d) + 1)
  {
    match d
    case Monday => Tuesday
    case Tuesday => Wednesday
    case Wednesday => Thursday
    case Thursday => Friday
    case Friday => Saturday
    case Saturday => Sunday
    case Sunday => Monday
  }

  /** The `n` days met walking forward from `from`, starting with `from` itself. */
  function Walk(from: Day, n: nat): seq<Day>
    decreases n
  {
    if n == 0 then [] else [from] + Walk(Next(from), n - 1)
  }

  /** The `j`-th day of a walk of at most a week is `j` steps after its first day. */
  lemma {:induction false} WalkSteps(from: Day, n: nat)
    requires n <= 7
    ensures |Walk(from, n)| == n
    ensures forall j :: 0 <= j < n ==> DayIndex(Walk(from, n)[j]) == Wrap(DayIndex(from) + j)
    decreases n
  {
    if n > 0 {
      WalkSteps(Next(from), n - 1);
      forall j | 0 < j < n
        ensures DayIndex(Walk(from, n)[j]) == Wrap(DayIndex(from) + j)
      {
        assert Walk(from, n)[j] == Walk(Next(from), n - 1)[j - 1];
      }
    }
  }

  /** A walk of at most seven days never meets a day twice. */
  lemma WalkIsDuplicateFree(from: Day, n: nat)
    requires n <= 7
    ensures forall i, j :: 0 <= i < j < |Walk(from, n)| ==> Walk(from, n)[i] != Walk(from, n)[j]
  {
    WalkSteps(from, n);
  }

  /** On the seven-day cycle, `j` steps from index `a` land on `d` exactly when `j` is the
      forward offset from `a` to `d`. */
  lemma StepsAndOffset(a: int, d: int, j: int)
    requires 0 <= a < 7 && 0 <= d < 7 && 0 <= j < 7
    ensures Wrap(a + j) == d <==> Wrap(d - a + 7) == j
  {
  }

  /** Range membership is the same as being met on the forward walk from `startDay` that
      stops at `endDay`, however the two days lie in calendar order. */
  lemma RangeIsForwardWalk(day: Day, startDay: Day, endDay: Day)
    ensures IsDayInRange(day, startDay, endDay) <==> day in Walk(startDay, Offset(startDay, endDay) + 1)
  {
    var k := Offset(startDay, endDay);
    if Offset(startDay, day) <= k {
      InRangeIsWalked(day, startDay, k);
    } else if day in Walk(startDay, k + 1) {
      WalkedIsInRange(day, startDay, k);
    }
  }

  /** A day within `k` steps of `startDay` is met on the walk of `k + 1` days. */
  lemma InRangeIsWalked(day: Day, startDay: Day, k: nat)
    requires k < 7 && Offset(startDay, day) <= k
    ensures day in Walk(startDay, k + 1)
  {
    var w := Walk(startDay, k + 1);
    WalkSteps(startDay, k + 1);
    var j := Offset(startDay, day);
    StepsAndOffset(DayIndex(startDay), DayIndex(day), j);
    DayIndexInjective(w[j], day);
  }

  /** A day met on the walk of `k + 1` days is within `k` steps of `startDay`. */
  lemma WalkedIsInRange(day: Day, startDay: Day, k: nat)
    requires k < 7 && day in Walk(startDay, k + 1)
    ensures Offset(startDay, day) <= k
  {
    var w := Walk(startDay, k + 1);
    WalkSteps(startDay, k + 1);
    var j :| 0 <= j < |w| && w[j] == day;
    StepsAndOffset(DayIndex(startDay), DayIndex(day), j);
  }

  /** Friday..Monday wraps past Sunday: it holds Saturday but not Wednesday. */
  lemma WrapAroundExample()
    ensures IsDayInRange(Saturday, Friday, Monday)
    ensures IsDayInRange(Monday, Friday, Monday)
    ensures !IsDayInRange(Wednesday, Friday, Monday)
  {
  }
}

=== FILE: clock.dfy ===
/** "HH:MM" clock strings: the 24-hour syntax check, parsing, conversion to and from
    minutes since midnight, range comparison and the 12-hour display form. */
module Clock {
  import opened Text

  /** `{ hours, minutes }` as `parseTime` returns it. */
  datatype ClockTime = ClockTime(hours: int, minutes: int)

  /** The hour part of the 24-hour syntax when it has two characters: 00..19 or 20..23. */
  predicate IsHourPair(a: char, b: char)
  {
    ((a == '0' || a == '1') && IsDigit(b)) || (a == '2' && '0' <= b <= '3')
  }

  /** The 24-hour syntax `^([01]?[0-9]|2[0-3]):[0-5][0-9]$`, character by character:
      a one- or two-character hour 0..23 (leading zero optional), a colon, and two minute
      digits 00..59. */
  predicate IsValidTime(t: string)
  {
    if |t| == 4 then
      IsDigit(t[0]) && t[1] == ':' && '0' <= t[2] <= '5' && IsDigit(t[3])
    else if |t| == 5 then
      IsHourPair(t[0], t[1]) && t[2] == ':' && '0' <= t[3] <= '5' && IsDigit(t[4])
    else
      false
  }

  /** Zero-padded "HH:MM" of hours and minutes below 100. */
  function ClockText(hours: nat, minutes: nat): string
    requires hours < 100 && minutes < 100
  {
    [DigitChar(hours / 10), DigitChar(hours % 10), ':', DigitChar(minutes / 10), DigitChar(minutes % 10)]
  }

  /** "H:MM", a one-digit hour written without padding. */
  function ShortClockText(hours: nat, minutes: nat): string
    requires hours < 10 && minutes < 100
  {
    [DigitChar(hours), ':', DigitChar(minutes / 10), DigitChar(minutes % 10)]
  }

  /** The clock text is the two padded decimal texts around a colon, as template strings with
      `padStart(2, '0')` print them. */
  lemma ClockTextIsPadded(hours: nat, minutes: nat)
    requires hours < 100 && minutes < 100
    ensures ClockText(hours, minutes) == Pad2(hours) + ":" + Pad2(minutes)
  {
    Pad2Digits(hours);
    Pad2Digits(minutes);
  }

  /** `parseTime` on a valid time: the hour and the minutes written in it. The frontend splits at
      the colon and applies `Number` to both sides; `ParseTimeIsSplitNumber` shows that this
      reading agrees with it. */
  function ParseTime(t: string): (c: ClockTime)
    requires IsValidTime(t)
    ensures 0 <= c.hours < 24 && 0 <= c.minutes < 60
  {
    if |t| == 4 then
      ClockTime(DigitValue(t[0]), DigitValue(t[2]) * 10 + DigitValue(t[3]))
    else
      ClockTime(DigitValue(t[0]) * 10 + DigitValue(t[1]), DigitValue(t[3]) * 10 + DigitValue(t[4]))
  }

  /** The hour digits of a valid time: the characters before its colon. */
  function HourPart(t: string): string
    requires IsValidTime(t)
  {
    if |t| == 4 then [t[0]] else [t[0], t[1]]
  }

  /** The two minute digits of a valid time: the characters after its colon. */
  function MinutePart(t: string): string
    requires IsValidTime(t)
  {
    [t[|t| - 2], t[|t| - 1]]
  }

  /** A valid time is its hour digits, a colon and its minute digits, and splitting it at
      the first colon gives back exactly those two parts. */
  lemma ValidTimeParts(t: string)
    requires IsValidTime(t)
    ensures t == HourPart(t) + ":" + MinutePart(t)
    ensures Before(t, ':') == HourPart(t) && After(t, ':') == MinutePart(t)
  {
    var x, y := HourPart(t), MinutePart(t);
    assert t == x + [':'] + y;
    SplitAtFirst(x, ':', y);
  }

  /** A single digit reads as its value. */
  lemma ParseOneDigit(s: string)
    requires |s| == 1 && IsDigit(s[0])
    ensures AllDigits(s) && ParseDigits(s) == DigitValue(s[0])
  {
    assert s[..0] == [];
  }

  /** `time.split(':').map(Number)` on a valid time: the digits before the colon and the digits
      after it read as the hours and minutes `ParseTime` returns. */
  lemma ParseTimeIsSplitNumber(t: string)
    requires IsValidTime(t)
    ensures AllDigits(Before(t, ':')) && AllDigits(After(t, ':'))
    ensures ParseTime(t) == ClockTime(ParseDigits(Before(t, ':')), ParseDigits(After(t, ':')))
  {
    ValidTimeParts(t);
    ParseTwoDigits(MinutePart(t));
    if |t| == 4 {
      ParseOneDigit(HourPart(t));
    } else {
      ParseTwoDigits(HourPart(t));
    }
  }

  /** A two-digit number splits into its tens and units digits. */
  lemma TensAndUnits(a: nat, b: nat)
    requires a < 10 && b < 10
    ensures (a * 10 + b) / 10 == a && (a * 10 + b) % 10 == b
  {
  }

  /** The digits of an hour 0..23 form a two-character hour of the 24-hour syntax. */
  lemma HourDigits(hours: nat)
    requires hours < 24
    ensures IsHourPair(DigitChar(hours / 10), DigitChar(hours % 10))
  {
    var a, b := hours / 10, hours % 10;
    assert a <= 2 && (a == 2 ==> b <= 3);
    var ca, cb := DigitChar(a), DigitChar(b);
    assert ca as int == '0' as int + a && cb as int == '0' as int + b;
  }

  /** The leading digit of minutes 0..59 is at most 5. */
  lemma MinuteDigits(minutes: nat)
    requires minutes < 60
    ensures '0' <= DigitChar(minutes / 10) <= '5'
  {
    var c := DigitChar(minutes / 10);
    assert c as int == '0' as int + minutes / 10;
  }

  /** The padded text of an hour 0..23 and minutes 0..59 is a valid time that parses back to
      them, and so is the short text when the hour has one digit. */
  lemma ParseClockText(hours: nat, minutes: nat)
    requires hours < 24 && minutes < 60
    ensures IsValidTime(ClockText(hours, minutes))
    ensures ParseTime(ClockText(hours, minutes)) == ClockTime(hours, minutes)
    ensures hours < 10 ==>
      IsValidTime(ShortClockText(hours, minutes)) && ParseTime(ShortClockText(hours, minutes)) == ClockTime(hours, minutes)
  {
    HourDigits(hours);
    MinuteDigits(minutes);
    DigitValueOfChar(hours / 10);
    DigitValueOfChar(hours % 10);
    DigitValueOfChar(minutes / 10);
    DigitValueOfChar(minutes % 10);
    if hours < 10 {
      DigitValueOfChar(hours);
    }
  }

  /** Equal padded clock texts of valid hours and minutes come from equal hours and minutes. */
  lemma ClockTextInjective(h1: nat, m1: nat, h2: nat, m2: nat)
    requires h1 < 24 && m1 < 60 && h2 < 24 && m2 < 60
    requires ClockText(h1, m1) == ClockText(h2, m2)
    ensures h1 == h2 && m1 == m2
  {
    ParseClockText(h1, m1);
    ParseClockText(h2, m2);
  }

  /** The padded text of a five-character valid time is the time itself. */
  lemma LongTimeIsClockText(t: string)
    requires IsValidTime(t) && |t| == 5
    ensures t == ClockText(ParseTime(t).hours, ParseTime(t).minutes)
  {
    var a, b, c, d := DigitValue(t[0]), DigitValue(t[1]), DigitValue(t[3]), DigitValue(t[4]);
    TensAndUnits(a, b);
    TensAndUnits(c, d);
    DigitCharOfValue(t[0]);
    DigitCharOfValue(t[1]);
    DigitCharOfValue(t[3]);
    DigitCharOfValue(t[4]);
    assert t == [t[0], t[1], ':', t[3], t[4]];
  }

  /** The short text of a four-character valid time is the time itself. */
  lemma ShortTimeIsShortClockText(t: string)
    requires IsValidTime(t) && |t| == 4
    ensures ParseTime(t).hours < 10
    ensures t == ShortClockText(ParseTime(t).hours, ParseTime(t).minutes)
  {
    var c, d := DigitValue(t[2]), DigitValue(t[3]);
    TensAndUnits(c, d);
    DigitCharOfValue(t[0]);
    DigitCharOfValue(t[2]);
    DigitCharOfValue(t[3]);
    assert t == [t[0], ':', t[2], t[3]];
  }

  /** A valid time is the padded or the short clock text of what it parses to, and it is the
      padded one exactly when it has five characters. */
  lemma ValidTimeIsClockText(t: string)
    requires IsValidTime(t)
    ensures var c := ParseTime(t);
      (t == ClockText(c.hours, c.minutes) || (c.hours < 10 && t == ShortClockText(c.hours, c.minutes)))
      && (|t| == 5 <==> t == ClockText(c.hours, c.minutes))
  {
    if |t| == 5 {
      LongTimeIsClockText(t);
    } else {
      ShortTimeIsShortClockText(t);
    }
  }

  /** A string is a valid time exactly when it is the padded or short clock text of some
      hour 0..23 and minutes 0..59. */
  lemma ValidTimeCharacterization(t: string)
    ensures IsValidTime(t) <==>
      exists h: nat, m: nat :: h < 24 && m < 60 && (t == ClockText(h, m) || (h < 10 && t == ShortClockText(h, m)))
  {
    if IsValidTime(t) {
      ValidTimeIsClockText(t);
    }
    forall h: nat, m: nat | h < 24 && m < 60
      ensures IsValidTime(ClockText(h, m))
      ensures h < 10 ==> IsValidTime(ShortClockText(h, m))
    {
      ParseClockText(h, m);
    }
  }

  /** `timeToMinutes`: minutes since midnight of a valid time. */
  function TimeToMinutes(t: string): (r: int)
    requires IsValidTime(t)
    ensures 0 <= r < 1440
  {
    var c := ParseTime(t);
    c.hours * 60 + c.minutes
  }

  /** `minutesToTime`: floor division into hours and JavaScript's `%` for the minutes, each
      printed with `padStart(2, '0')`; any integer is accepted. */
  function MinutesToTime(totalMinutes: int): string
  {
    var hours := totalMinutes / 60;
    var minutes := JsRemainder(totalMinutes, 60);
    PadStart(IntText(hours), 2, '0') + ":" + PadStart(IntText(minutes), 2, '0')
  }

  /** On minutes of the day `minutesToTime` is the padded clock text of the hour and minute. */
  lemma MinutesToTimeOfDay(m: int)
    requires 0 <= m < 1440
    ensures MinutesToTime(m) == ClockText(m / 60, m % 60)
  {
    assert JsRemainder(m, 60) == m % 60;
    assert IntText(m / 60) == NatText(m / 60);
    assert IntText(m % 60) == NatText(m % 60);
    ClockTextIsPadded(m / 60, m % 60);
  }

  /** Every minute of the day prints as a padded "HH:MM" accepted by `IsValidTime` that
      reads back as the same minute. */
  lemma MinutesToTimeRoundTrip(m: int)
    requires 0 <= m < 1440
    ensures |MinutesToTime(m)| == 5
    ensures IsValidTime(MinutesToTime(m))
    ensures TimeToMinutes(MinutesToTime(m)) == m
  {
    MinutesToTimeOfDay(m);
    ParseClockText(m / 60, m % 60);
  }

  /** Hours and minutes of the day survive the trip through minutes since midnight. */
  lemma MinutesOfDaySplit(hours: nat, minutes: nat)
    requires hours < 24 && minutes < 60
    ensures (hours * 60 + minutes) / 60 == hours && (hours * 60 + minutes) % 60 == minutes
  {
  }

  /** The minute `hours * 60 + minutes` of the day prints as the padded clock text of the hour
      and minutes. */
  lemma MinutesToTimeOfClock(hours: nat, minutes: nat)
    requires hours < 24 && minutes < 60
    ensures MinutesToTime(hours * 60 + minutes) == ClockText(hours, minutes)
  {
    MinutesOfDaySplit(hours, minutes);
    MinutesToTimeOfDay(hours * 60 + minutes);
  }

  /** For a one-digit hour the padded text is the short text behind a '0'. */
  lemma ShortClockTextPadded(hours: nat, minutes: nat)
    requires hours < 10 && minutes < 100
    ensures ClockText(hours, minutes) == "0" + ShortClockText(hours, minutes)
  {
    assert DigitChar(0) == '0';
  }

  /** The padded clock text of what a valid time parses to is the time itself, with a leading
      zero added when its hour was written with one digit. */
  lemma PaddedFormOfValidTime(t: string)
    requires IsValidTime(t)
    ensures ClockText(ParseTime(t).hours, ParseTime(t).minutes) == (if |t| == 4 then "0" + t else t)
  {
    var c := ParseTime(t);
    if |t| == 4 {
      ShortTimeIsShortClockText(t);
      ShortClockTextPadded(c.hours, c.minutes);
    } else {
      LongTimeIsClockText(t);
    }
  }

  /** Converting a valid time to minutes and back gives its padded form: the time itself,
      or the time with a leading zero when its hour was written with one digit. */
  lemma TimeToMinutesRoundTrip(t: string)
    requires IsValidTime(t)
    ensures MinutesToTime(TimeToMinutes(t)) == (if |t| == 4 then "0" + t else t)
  {
    var c := ParseTime(t);
    var m := TimeToMinutes(t);
    assert m == c.hours * 60 + c.minutes;
    MinutesToTimeOfClock(c.hours, c.minutes);
    assert MinutesToTime(m) == ClockText(c.hours, c.minutes);
    PaddedFormOfValidTime(t);
  }

  /** At the end of the day `minutesToTime` leaves the 24-hour syntax: 1440 prints as "24:00". */
  lemma MinutesToTimeEndOfDay()
    ensures MinutesToTime(1440) == "24:00" && !IsValidTime("24:00")
  {
    assert NatText(24) == "24" by {
      assert NatText(2) == "2";
    }
    assert NatText(0) == "0";
  }

  /** The decimal texts of -1 and -30 are already two characters long. */
  lemma NegativeTexts()
    ensures IntText(-1) == "-1" && IntText(-30) == "-30"
  {
    assert NatText(1) == "1";
    assert NatText(30) == "30" by {
      assert NatText(3) == "3";
    }
  }

  /** A negative total prints a negative hour and negative minutes: -30 prints as "-1:-30". */
  lemma MinutesToTimeNegative()
    ensures MinutesToTime(-30) == "-1:-30"
  {
    assert -30 / 60 == -1 && JsRemainder(-30, 60) == -30;
    NegativeTexts();
  }

  /** One time of day comes before another: an earlier hour, or the same hour and an earlier
      minute. */
  predicate ClockBefore(a: ClockTime, b: ClockTime)
  {
    a.hours < b.hours || (a.hours == b.hours && a.minutes < b.minutes)
  }

  /** On times of day, comparing minutes since midnight is comparing hour first, then minute. */
  lemma MinutesOrderIsClockOrder(a: ClockTime, b: ClockTime)
    requires 0 <= a.hours < 24 && 0 <= a.minutes < 60 && 0 <= b.hours < 24 && 0 <= b.minutes < 60
    ensures a.hours * 60 + a.minutes < b.hours * 60 + b.minutes <==> ClockBefore(a, b)
  {
    if a.hours < b.hours {
      assert a.hours * 60 + 60 <= b.hours * 60;
    } else if a.hours > b.hours {
      assert b.hours * 60 + 60 <= a.hours * 60;
    }
  }

  /** `isTimeRangeValid`: accepted exactly when both times are valid and the start comes before
      the end on the clock, whether or not the hours are zero-padded. */
  function IsTimeRangeValid(startTime: string, endTime: string): (r: bool)
    ensures r <==>
      (IsValidTime(startTime) && IsValidTime(endTime)
       && ClockBefore(ParseTime(startTime), ParseTime(endTime)))
  {
    if !IsValidTime(startTime) || !IsValidTime(endTime) then false
    else
      MinutesOrderIsClockOrder(ParseTime(startTime), ParseTime(endTime));
      TimeToMinutes(startTime) < TimeToMinutes(endTime)
  }

  /** A range may mix a one-digit and a two-digit hour: "9:00" to "10:00" is accepted. */
  lemma MixedHourRange()
    ensures IsTimeRangeValid("9:00", "10:00")
    ensures !IsTimeRangeValid("10:00", "9:00")
  {
  }

  /** For printed minutes of the day, the range check is exactly the order of the minutes. */
  lemma TimeRangeOrdersMinutes(x: int, y: int)
    requires 0 <= x < 1440 && 0 <= y < 1440
    ensures IsTimeRangeValid(MinutesToTime(x), MinutesToTime(y)) <==> x < y
  {
    MinutesToTimeRoundTrip(x);
    MinutesToTimeRoundTrip(y);
  }

  /** No time range from a time to itself is valid. */
  lemma EmptyTimeRangeInvalid(t: string)
    ensures !IsTimeRangeValid(t, t)
  {
  }

  /** "H:MM AM" or "H:MM PM": the hour unpadded, the minutes padded to two digits. */
  function TwelveHourText(displayHours: nat, minutes: nat, pm: bool): string
  {
    NatText(displayHours) + ":" + Pad2(minutes) + " " + (if pm then "PM" else "AM")
  }

  /** `formatTime`: the 12-hour display with the hour 1..12 (`hours % 12 || 12`) and the
      period PM from noon on. */
  function FormatTime(t: string): string
    requires IsValidTime(t)
  {
    var c := ParseTime(t);
    var displayHours := if c.hours % 12 == 0 then 12 else c.hours % 12;
    TwelveHourText(displayHours, c.minutes, c.hours >= 12)
  }

  /** Whether `s` has the shape "<digits>:<two digits> <two letters>". */
  predicate Is12HourShape(s: string)
  {
    |s| >= 7 && AllDigits(s[..|s| - 6]) && s[|s| - 6] == ':' && AllDigits(s[|s| - 5..|s| - 3])
    && s[|s| - 3] == ' '
  }

  /** Minutes since midnight of a 12-hour "H:MM AM|PM" text: 12 AM is midnight and 12 PM noon. */
  function Read12Hour(s: string): int
    requires Is12HourShape(s)
  {
    var hours12 := ParseDigits(s[..|s| - 6]);
    var minutes := ParseDigits(s[|s| - 5..|s| - 3]);
    var pm := s[|s| - 2..] == "PM";
    (hours12 % 12 + (if pm then 12 else 0)) * 60 + minutes
  }

  /** The pieces of a "<hour>:<minutes> <period>" text with two-character minutes and period. */
  lemma TwelveHourPieces(hourText: string, minuteText: string, period: string)
    requires |minuteText| == 2 && |period| == 2
    ensures var r := hourText + ":" + minuteText + " " + period;
      |r| == |hourText| + 6 && r[..|r| - 6] == hourText && r[|r| - 6] == ':'
      && r[|r| - 5..|r| - 3] == minuteText && r[|r| - 3] == ' ' && r[|r| - 2..] == period
  {
  }

  /** A 12-hour text has the 12-hour shape and reads back as its hour, minutes and period. */
  lemma ReadTwelveHourText(displayHours: nat, minutes: nat, pm: bool)
    requires minutes < 100
    ensures Is12HourShape(TwelveHourText(displayHours, minutes, pm))
    ensures var r := TwelveHourText(displayHours, minutes, pm);
      r[..|r| - 6] == NatText(displayHours) && ParseDigits(r[..|r| - 6]) == displayHours
    ensures var r := TwelveHourText(displayHours, minutes, pm); r[|r| - 2..] == (if pm then "PM" else "AM")
    ensures var r := TwelveHourText(displayHours, minutes, pm); ParseDigits(r[|r| - 5..|r| - 3]) == minutes
    ensures Read12Hour(TwelveHourText(displayHours, minutes, pm))
      == (displayHours % 12 + (if pm then 12 else 0)) * 60 + minutes
  {
    var period := if pm then "PM" else "AM";
    ParsePad2(minutes);
    ParseNatText(displayHours);
    TwelveHourPieces(NatText(displayHours), Pad2(minutes), period);
  }

  /** The 12-hour clock hour (`hours % 12 || 12`) and the period recover the 24-hour hour. */
  lemma TwelveHourArithmetic(hours: nat)
    requires hours < 24
    ensures var display := if hours % 12 == 0 then 12 else hours % 12;
      1 <= display <= 12 && display % 12 + (if hours >= 12 then 12 else 0) == hours
  {
  }

  /** The 12-hour display of a valid time has the 12-hour shape, writes its hour as a plain
      number from 1 to 12 and its minutes as the time's minutes (below 60), says "AM" before
      noon and "PM" from noon on, and reads back as the same minute of the day. */
  lemma FormatTimeRoundTrip(t: string)
    requires IsValidTime(t)
    ensures Is12HourShape(FormatTime(t))
    ensures var r := FormatTime(t);
      1 <= ParseDigits(r[..|r| - 6]) <= 12 && r[..|r| - 6] == NatText(ParseDigits(r[..|r| - 6]))
    ensures var r := FormatTime(t); r[|r| - 2..] == (if TimeToMinutes(t) >= 720 then "PM" else "AM")
    ensures var r := FormatTime(t); ParseDigits(r[|r| - 5..|r| - 3]) == ParseTime(t).minutes && ParseTime(t).minutes < 60
    ensures Read12Hour(FormatTime(t)) == TimeToMinutes(t)
  {
    var c := ParseTime(t);
    var displayHours := if c.hours % 12 == 0 then 12 else c.hours % 12;
    ReadTwelveHourText(displayHours, c.minutes, c.hours >= 12);
    TwelveHourArithmetic(c.hours);
  }

  /** Half past midnight shows as hour 12 in the morning. */
  lemma HalfPastMidnight()
    ensures IsValidTime("00:30") && FormatTime("00:30") == "12:30 AM"
  {
  }

  /** Five past one in the afternoon shows as hour 1 after noon. */
  lemma FivePastOne()
    ensures IsValidTime("13:05") && FormatTime("13:05") == "1:05 PM"
  {
  }
}

=== FILE: dashboard.dfy ===
/** The schedule editor's state updates: renaming, the daily time range, ticking active days,
    adding, patching and removing tasks and mandatory tasks, the frequency choices and the
    save gate. Each update is a pure function from the previous schedule to the next one. */
module Dashboard {
  import opened Interfaces
  import opened Calendar
  import opened Sequences
  import opened DaySelections
  import opened Projection
  import opened Validation
  import opened Factories

  /** `handleScheduleNameChange`: only the name changes. */
  function SetName(s: Schedule, name: string): (r: Schedule)
    ensures r.name == name && r == s.(name := r.name)
  {
    s.(name := name)
  }

  /** The two time inputs of the editor. */
  datatype TimeField = StartTime | EndTime

  /** `handleTimeChange`: only the chosen end of the daily time range changes. */
  function SetTime(s: Schedule, field: TimeField, value: string): (r: Schedule)
    ensures field == StartTime ==> r.startTime == value && r == s.(startTime := r.startTime)
    ensures field == EndTime ==> r.endTime == value && r == s.(endTime := r.endTime)
  {
    match field
    case StartTime => s.(startTime := value)
    case EndTime => s.(endTime := value)
  }

  /** The filter predicate keeping the days other than `day`. */
  function OtherThan(day: Day): Day -> bool
  {
    (d: Day) => d != day
  }

  /** `handleDaySelectionChange`: ticking appends the day at the end, even when it is already
      listed; unticking removes every occurrence of it. The other days keep their order and
      nothing else changes. */
  function SetDaySelected(s: Schedule, day: Day, selected: bool): (r: Schedule)
    ensures r == s.(activeDays := r.activeDays)
    ensures selected ==>
      |r.activeDays| == |s.activeDays| + 1 && r.activeDays[|s.activeDays|] == day
      && forall i :: 0 <= i < |s.activeDays| ==> r.activeDays[i] == s.activeDays[i]
    ensures !selected ==>
      IsSubsequence(r.activeDays, s.activeDays)
      && (forall d :: d in r.activeDays <==> d in s.activeDays && d != day)
      && multiset(r.activeDays) == multiset(s.activeDays)[day := 0]
  {
    if selected then s.(activeDays := s.activeDays + [day])
    else
      FilterCounts(s.activeDays, OtherThan(day));
      s.(activeDays := Filter(s.activeDays, OtherThan(day)))
  }

  /** Selections that differ from `sel` at most in the box of `day`, which reads `v`. */
  lemma TickedAfterUpdate(sel: DaySelection, day: Day, v: bool)
    requires IsTotal(sel)
    ensures IsTotal(sel[day := v])
    ensures forall d :: Selected(sel[day := v], d) <==> (if d == day then v else Selected(sel, d))
  {
    forall d
      ensures Selected(sel[day := v], d) <==> (if d == day then v else Selected(sel, d))
    {
      if d != day {
        assert sel[day := v][d] == sel[d];
      }
    }
  }

  /** A total selection whose ticks differ from `sel`'s only at `day`, where it holds `v`, is
      `sel` with that one entry updated. */
  lemma TicksOfUpdate(a: DaySelection, sel: DaySelection, day: Day, v: bool)
    requires IsTotal(a) && IsTotal(sel)
    requires forall d :: Selected(a, d) <==> (if d == day then v else Selected(sel, d))
    ensures a == sel[day := v]
  {
    TickedAfterUpdate(sel, day, v);
    SameTicksSameSelection(a, sel[day := v]);
  }

  /** Appending a day to the list ticks its box and leaves the others as they were. */
  lemma TickAppended(days: seq<Day>, day: Day)
    ensures ArrayToDaySelection(days + [day]) == ArrayToDaySelection(days)[day := true]
  {
    TicksOfUpdate(ArrayToDaySelection(days + [day]), ArrayToDaySelection(days), day, true);
  }

  /** The boxes ticked for a list without `day` are those of the list's other days. */
  lemma TicksWithout(days: seq<Day>, day: Day)
    ensures forall d :: Selected(ArrayToDaySelection(Filter(days, OtherThan(day))), d) <==> d in days && d != day
  {
    var kept := Filter(days, OtherThan(day));
    assert forall d :: d in kept <==> d in days && d != day;
  }

  /** Dropping every occurrence of a day from the list unticks its box and leaves the others as
      they were. */
  lemma UntickFiltered(days: seq<Day>, day: Day)
    ensures ArrayToDaySelection(Filter(days, OtherThan(day))) == ArrayToDaySelection(days)[day := false]
  {
    TicksWithout(days, day);
    TicksOfUpdate(ArrayToDaySelection(Filter(days, OtherThan(day))), ArrayToDaySelection(days), day, false);
  }

  /** Toggling a day's check box changes that box to the new state and leaves every other box
      as it was. */
  lemma CheckBoxFollowsToggle(s: Schedule, day: Day, selected: bool)
    ensures ArrayToDaySelection(SetDaySelected(s, day, selected).activeDays)
      == ArrayToDaySelection(s.activeDays)[day := selected]
  {
    if selected {
      TickAppended(s.activeDays, day);
    } else {
      UntickFiltered(s.activeDays, day);
    }
  }

  /** Ticking a day that is already listed lists it twice. */
  lemma SelectingTwiceRepeats(s: Schedule, day: Day)
    requires day in s.activeDays
    ensures !Distinct(SetDaySelected(s, day, true).activeDays)
  {
    var days := SetDaySelected(s, day, true).activeDays;
    var i :| 0 <= i < |s.activeDays| && s.activeDays[i] == day;
    assert days[i] == days[|s.activeDays|];
  }

  /** The filter predicates selecting the entries with and without a given id. */
  function TaskHasId(id: string): Task -> bool
  {
    (t: Task) => t.id == id
  }

  function TaskLacksId(id: string): Task -> bool
  {
    (t: Task) => t.id != id
  }

  function MandatoryHasId(id: string): MandatoryTask -> bool
  {
    (m: MandatoryTask) => m.id == id
  }

  function MandatoryLacksId(id: string): MandatoryTask -> bool
  {
    (m: MandatoryTask) => m.id != id
  }

  /** The new value of a field named in a partial update, or the old one when it is not named. */
  function Patched<T>(update: Option<T>, current: T): T
  {
    if update.Some? then update.value else current
  }

  /** `Partial<Task>`: each field may be named in an update; an optional field may be named with
      no value, which clears it. */
  datatype TaskPatch = TaskPatch(
    id: Option<string>,
    summary: Option<string>,
    duration: Option<Duration>,
    onWeekends: Option<bool>,
    preferredTime: Option<Option<TimeOfDay>>,
    frequency: Option<int>,
    color: Option<Option<string>>,
    priority: Option<Option<Priority>>)

  /** `Partial<MandatoryTask>`. */
  datatype MandatoryTaskPatch = MandatoryTaskPatch(
    id: Option<string>,
    summary: Option<string>,
    startTime: Option<string>,
    endTime: Option<string>,
    startDay: Option<Day>,
    endDay: Option<Day>,
    color: Option<Option<string>>,
    location: Option<Option<string>>)

  /** A patch naming no field. */
  const NoTaskChange := TaskPatch(None, None, None, None, None, None, None, None)
  const NoMandatoryChange := MandatoryTaskPatch(None, None, None, None, None, None, None, None)

  /** `{ ...task, ...updates }`. */
  function ApplyTaskPatch(p: TaskPatch): Task -> Task
  {
    (t: Task) => Task(Patched(p.id, t.id), Patched(p.summary, t.summary), Patched(p.duration, t.duration),
      Patched(p.onWeekends, t.onWeekends), Patched(p.preferredTime, t.preferredTime),
      Patched(p.frequency, t.frequency), Patched(p.color, t.color), Patched(p.priority, t.priority))
  }

  /** `{ ...task, ...updates }` for a mandatory task. */
  function ApplyMandatoryPatch(p: MandatoryTaskPatch): MandatoryTask -> MandatoryTask
  {
    (m: MandatoryTask) => MandatoryTask(Patched(p.id, m.id), Patched(p.summary, m.summary),
      Patched(p.startTime, m.startTime), Patched(p.endTime, m.endTime),
      Patched(p.startDay, m.startDay), Patched(p.endDay, m.endDay),
      Patched(p.color, m.color), Patched(p.location, m.location))
  }

  /** `addTask`: a fresh default task with the given id goes at the end of the list; earlier
      tasks and the other fields stay as they were. */
  function AddTask(s: Schedule, id: string): (r: Schedule)
    ensures r == s.(tasks := r.tasks)
    ensures |r.tasks| == |s.tasks| + 1 && r.tasks[|s.tasks|] == CreateEmptyTask(id)
    ensures forall i :: 0 <= i < |s.tasks| ==> r.tasks[i] == s.tasks[i]
  {
    s.(tasks := s.tasks + [CreateEmptyTask(id)])
  }

  /** `updateTask`: every task with the id gets the named fields overwritten; the others and
      the list's length and order stay as they were. */
  function UpdateTask(s: Schedule, id: string, p: TaskPatch): (r: Schedule)
    ensures r == s.(tasks := r.tasks) && |r.tasks| == |s.tasks|
    ensures forall i :: 0 <= i < |s.tasks| ==>
      r.tasks[i] == (if s.tasks[i].id == id then ApplyTaskPatch(p)(s.tasks[i]) else s.tasks[i])
  {
    s.(tasks := MapWhere(s.tasks, TaskHasId(id), ApplyTaskPatch(p)))
  }

  /** `removeTask`: exactly the tasks with the id go; the rest keep their order. */
  function RemoveTask(s: Schedule, id: string): (r: Schedule)
    ensures r == s.(tasks := r.tasks)
    ensures IsSubsequence(r.tasks, s.tasks)
    ensures forall t :: t in r.tasks <==> t in s.tasks && t.id != id
    ensures forall t :: multiset(r.tasks)[t] == if t.id != id then multiset(s.tasks)[t] else 0
  {
    FilterCounts(s.tasks, TaskLacksId(id));
    s.(tasks := Filter(s.tasks, TaskLacksId(id)))
  }

  /** `addMandatoryTask`: a fresh default mandatory task with the given id goes at the end. */
  function AddMandatoryTask(s: Schedule, id: string): (r: Schedule)
    ensures r == s.(mandatoryTasks := r.mandatoryTasks)
    ensures |r.mandatoryTasks| == |s.mandatoryTasks| + 1
      && r.mandatoryTasks[|s.mandatoryTasks|] == CreateEmptyMandatoryTask(id)
    ensures forall i :: 0 <= i < |s.mandatoryTasks| ==> r.mandatoryTasks[i] == s.mandatoryTasks[i]
  {
    s.(mandatoryTasks := s.mandatoryTasks + [CreateEmptyMandatoryTask(id)])
  }

  /** `updateMandatoryTask`: every mandatory task with the id gets the named fields overwritten. */
  function UpdateMandatoryTask(s: Schedule, id: string, p: MandatoryTaskPatch): (r: Schedule)
    ensures r == s.(mandatoryTasks := r.mandatoryTasks) && |r.mandatoryTasks| == |s.mandatoryTasks|
    ensures forall i :: 0 <= i < |s.mandatoryTasks| ==>
      r.mandatoryTasks[i] == (if s.mandatoryTasks[i].id == id
        then ApplyMandatoryPatch(p)(s.mandatoryTasks[i]) else s.mandatoryTasks[i])
  {
    s.(mandatoryTasks := MapWhere(s.mandatoryTasks, MandatoryHasId(id), ApplyMandatoryPatch(p)))
  }

  /** `removeMandatoryTask`: exactly the mandatory tasks with the id go. */
  function RemoveMandatoryTask(s: Schedule, id: string): (r: Schedule)
    ensures r == s.(mandatoryTasks := r.mandatoryTasks)
    ensures IsSubsequence(r.mandatoryTasks, s.mandatoryTasks)
    ensures forall m :: m in r.mandatoryTasks <==> m in s.mandatoryTasks && m.id != id
    ensures forall m ::
      multiset(r.mandatoryTasks)[m] == if m.id != id then multiset(s.mandatoryTasks)[m] else 0
  {
    FilterCounts(s.mandatoryTasks, MandatoryLacksId(id));
    s.(mandatoryTasks := Filter(s.mandatoryTasks, MandatoryLacksId(id)))
  }

  /** Removing the id of a task just added undoes the addition, as far as the remaining tasks
      are concerned; when the id was new, the schedule is back where it was. */
  lemma RemoveUndoesAdd(s: Schedule, id: string)
    ensures RemoveTask(AddTask(s, id), id) == RemoveTask(s, id)
    ensures (forall t :: t in s.tasks ==> t.id != id) ==> RemoveTask(AddTask(s, id), id) == s
  {
    FilterSnoc(s.tasks, CreateEmptyTask(id), TaskLacksId(id));
    if forall t :: t in s.tasks ==> t.id != id {
      FilterKeepsAll(s.tasks, TaskLacksId(id));
    }
  }

  /** The same for mandatory tasks. */
  lemma RemoveUndoesAddMandatory(s: Schedule, id: string)
    ensures RemoveMandatoryTask(AddMandatoryTask(s, id), id) == RemoveMandatoryTask(s, id)
    ensures (forall m :: m in s.mandatoryTasks ==> m.id != id) ==>
      RemoveMandatoryTask(AddMandatoryTask(s, id), id) == s
  {
    FilterSnoc(s.mandatoryTasks, CreateEmptyMandatoryTask(id), MandatoryLacksId(id));
    if forall m :: m in s.mandatoryTasks ==> m.id != id {
      FilterKeepsAll(s.mandatoryTasks, MandatoryLacksId(id));
    }
  }

  /** Patching the tasks with an id and then removing that id leaves what removing alone
      leaves, provided the patch does not rename the tasks. */
  lemma {:induction false} RemoveAfterPatchedTasks(ts: seq<Task>, id: string, p: TaskPatch)
    requires p.id.None?
    ensures Filter(MapWhere(ts, TaskHasId(id), ApplyTaskPatch(p)), TaskLacksId(id)) == Filter(ts, TaskLacksId(id))
    decreases |ts|
  {
    if |ts| > 0 {
      var mapped := MapWhere(ts, TaskHasId(id), ApplyTaskPatch(p));
      assert mapped[1..] == MapWhere(ts[1..], TaskHasId(id), ApplyTaskPatch(p));
      assert mapped[0].id == ts[0].id;
      assert mapped[0] == ts[0] || ts[0].id == id;
      RemoveAfterPatchedTasks(ts[1..], id, p);
    }
  }

  /** Removing a task after patching it is the same as removing it straight away. */
  lemma RemoveAfterUpdate(s: Schedule, id: string, p: TaskPatch)
    requires p.id.None?
    ensures RemoveTask(UpdateTask(s, id, p), id) == RemoveTask(s, id)
  {
    RemoveAfterPatchedTasks(s.tasks, id, p);
  }

  /** A patch that names no field changes nothing. */
  lemma EmptyPatchChangesNothing(s: Schedule, id: string)
    ensures UpdateTask(s, id, NoTaskChange) == s
    ensures UpdateMandatoryTask(s, id, NoMandatoryChange) == s
  {
    var r := UpdateTask(s, id, NoTaskChange);
    assert r.tasks == s.tasks;
    var q := UpdateMandatoryTask(s, id, NoMandatoryChange);
    assert q.mandatoryTasks == s.mandatoryTasks;
  }

  /** A newly added task shows at the end of an active weekday's list and not at all on an
      active weekend day, whose list stays as it was. */
  lemma AddedTaskOnDays(s: Schedule, id: string, day: Day)
    requires day in s.activeDays
    ensures !IsWeekend(day) ==>
      GetDaySchedule(AddTask(s, id), day).value.tasks
        == GetDaySchedule(s, day).value.tasks + [CreateEmptyTask(id)]
    ensures IsWeekend(day) ==>
      GetDaySchedule(AddTask(s, id), day).value.tasks == GetDaySchedule(s, day).value.tasks
  {
    ProjectAppendedTask(s, CreateEmptyTask(id), day);
  }

  /** A newly added mandatory task shows on active days from Monday to Friday only. */
  lemma AddedMandatoryTaskOnDays(s: Schedule, id: string, day: Day)
    requires day in s.activeDays
    ensures !IsWeekend(day) ==>
      GetDaySchedule(AddMandatoryTask(s, id), day).value.mandatoryTasks
        == GetDaySchedule(s, day).value.mandatoryTasks + [CreateEmptyMandatoryTask(id)]
    ensures IsWeekend(day) ==>
      GetDaySchedule(AddMandatoryTask(s, id), day).value.mandatoryTasks
        == GetDaySchedule(s, day).value.mandatoryTasks
  {
    ProjectAppendedMandatoryTask(s, CreateEmptyMandatoryTask(id), day);
  }

  /** The numbers 1 to `n` in increasing order. */
  function OneTo(n: nat): (r: seq<int>)
    ensures |r| == n
    ensures forall i :: 0 <= i < n ==> r[i] == i + 1
  {
    seq(n, i => i + 1)
  }

  /** `TaskCard`'s "Times per Week" choices: 1 up to the number of active days. */
  function FrequencyOptions(s: Schedule): (r: seq<int>)
    ensures |r| == |s.activeDays|
    ensures forall f :: f in r <==> 1 <= f <= |s.activeDays|
    ensures forall i, j :: 0 <= i < j < |r| ==> r[i] < r[j]
  {
    OneToMembers(|s.activeDays|);
    OneTo(|s.activeDays|)
  }

  /** The members of `OneTo(n)` are exactly 1 to `n`. */
  lemma OneToMembers(n: nat)
    ensures forall f :: f in OneTo(n) <==> 1 <= f <= n
  {
    var r := OneTo(n);
    forall f | 1 <= f <= n
      ensures f in r
    {
      assert r[f - 1] == f;
    }
  }

  /** The default frequency of a new task is among the choices exactly when some day is active. */
  lemma DefaultFrequencyOffered(s: Schedule, id: string)
    ensures CreateEmptyTask(id).frequency in FrequencyOptions(s) <==> |s.activeDays| > 0
  {
  }

  /** What pressing save produces: the messages shown, and the schedule handed on, if any. */
  datatype SaveOutcome = SaveOutcome(errors: seq<string>, saved: Option<Schedule>)

  /** `handleSave`: the validation messages are always shown; only when there are none is the
      schedule handed on, stamped with the current time. */
  function HandleSave(s: Schedule, now: Timestamp): (r: SaveOutcome)
    ensures r.errors == ValidateSchedule(s)
    ensures r.saved.Some? <==> IsWellFormed(s)
    ensures r.saved.Some? ==> r.saved.value == s.(updatedAt := now)
  {
    var errors := ValidateSchedule(s);
    SaveOutcome(errors, if |errors| == 0 then Some(s.(updatedAt := now)) else None)
  }

  /** A schedule handed on by save passes validation itself. */
  lemma SavedScheduleIsValid(s: Schedule, now: Timestamp)
    requires HandleSave(s, now).saved.Some?
    ensures ValidateSchedule(HandleSave(s, now).saved.value) == []
  {
    ValidationReadsOnlyRuleFields(s, s.(updatedAt := now));
  }

  /** Renaming changes only the name rule's verdict; every other message stays as it was. */
  lemma RenameAffectsOnlyNameRule(s: Schedule, name: string)
    ensures NameRequired in ValidateSchedule(SetName(s, name)) <==> Text.Trim(name) == ""
    ensures forall m :: m != NameRequired ==>
      (m in ValidateSchedule(SetName(s, name)) <==> m in ValidateSchedule(s))
  {
    var before, after := ValidateSchedule(s), ValidateSchedule(SetName(s, name));
    forall m | m != NameRequired && (m in before || m in after)
      ensures m in before <==> m in after
    {
      assert IsSubsequence(before, AllMessages) && IsSubsequence(after, AllMessages);
      SubsequenceMembers(before, AllMessages);
      SubsequenceMembers(after, AllMessages);
    }
  }

  /** Every member of a subsequence is a member of the whole. */
  lemma {:induction false} SubsequenceMembers<T>(a: seq<T>, b: seq<T>)
    requires IsSubsequence(a, b)
    ensures forall x :: x in a ==> x in b
    decreases |b|
  {
    if |a| > 0 && |b| > 0 {
      if a[0] == b[0] {
        SubsequenceMembers(a[1..], b[1..]);
        assert forall x :: x in a ==> x == a[0] || x in a[1..];
      } else {
        SubsequenceMembers(a, b[1..]);
      }
    }
  }
}

=== FILE: day_selections.dfy ===
/** The editor's check-box state: conversions between a list of active days and a
    per-day boolean selection. */
module DaySelections {
  import opened Interfaces
  import opened Calendar
  import opened Sequences

  /** Whether a check box is ticked; a day without an entry reads as `undefined`, i.e. unticked. */
  predicate Selected(sel: DaySelection, d: Day)
  {
    d in sel && sel[d]
  }

  /** A selection with an entry for every day, as the `DaySelection` type demands. */
  predicate IsTotal(sel: DaySelection)
  {
    forall d: Day :: d in sel
  }

  /** Writes `v` for each of `days` in turn, as the `reduce`/`forEach` loops do. */
  function Assign(days: seq<Day>, sel: DaySelection, v: bool): (r: DaySelection)
    ensures forall d :: d in r <==> d in sel || d in days
    ensures forall d :: d in days ==> r[d] == v
    ensures forall d :: d in sel && d !in days ==> r[d] == sel[d]
    decreases |days|
  {
    if |days| == 0 then sel
    else
      assert forall d :: d in days <==> d == days[0] || d in days[1..];
      Assign(days[1..], sel[days[0] := v], v)
  }

  /** `createEmptyDaySelection`: every day present and unticked. */
  function EmptyDaySelection(): (sel: DaySelection)
    ensures IsTotal(sel)
    ensures forall d :: !Selected(sel, d)
  {
    DaysOfWeekEnumerates();
    Assign(DaysOfWeek, map[], false)
  }

  /** `arrayToDaySelection`: the empty selection with every listed day ticked. */
  function ArrayToDaySelection(days: seq<Day>): (sel: DaySelection)
    ensures IsTotal(sel)
    ensures forall d :: Selected(sel, d) <==> d in days
  {
    Assign(days, EmptyDaySelection(), true)
  }

  /** The filter predicate of `daySelectionToArray`. */
  function SelectedIn(sel: DaySelection): Day -> bool
  {
    d => Selected(sel, d)
  }

  /** `daySelectionToArray`: the ticked days, in calendar order. */
  function DaySelectionToArray(sel: DaySelection): (days: seq<Day>)
    ensures forall d :: d in days <==> Selected(sel, d)
    ensures StrictlySorted(days, DayBefore)
  {
    DaysOfWeekEnumerates();
    DaysOfWeekSorted();
    FilterSorted(DaysOfWeek, SelectedIn(sel), DayBefore);
    Filter(DaysOfWeek, SelectedIn(sel))
  }

  /** Calendar order is asymmetric. */
  lemma DayBeforeAsymmetric()
    ensures forall a, b :: DayBefore(a, b) ==> !DayBefore(b, a)
  {
  }

  /** Ticking the listed days and reading the boxes back gives the listed days once each,
      in calendar order: the only strictly ordered list with the same days. */
  lemma ListRoundTrip(days: seq<Day>, xs: seq<Day>)
    requires StrictlySorted(xs, DayBefore)
    requires forall d :: d in xs <==> d in days
    ensures DaySelectionToArray(ArrayToDaySelection(days)) == xs
  {
    DayBeforeAsymmetric();
    SortedUnique(DaySelectionToArray(ArrayToDaySelection(days)), xs, DayBefore);
  }

  /** A list that already holds each day at most once, in calendar order, survives the trip
      through the check boxes unchanged. */
  lemma SortedListRoundTrip(days: seq<Day>)
    requires StrictlySorted(days, DayBefore)
    ensures DaySelectionToArray(ArrayToDaySelection(days)) == days
  {
    ListRoundTrip(days, days);
  }

  /** Two complete selections that tick the same boxes are the same selection. */
  lemma SameTicksSameSelection(a: DaySelection, b: DaySelection)
    requires IsTotal(a) && IsTotal(b)
    requires forall d :: Selected(a, d) <==> Selected(b, d)
    ensures a == b
  {
    forall d
      ensures d in a.Keys && d in b.Keys && a[d] == b[d]
    {
      assert Selected(a, d) <==> Selected(b, d);
    }
    assert a.Keys == b.Keys;
  }

  /** A complete selection survives the trip through the list of ticked days unchanged. */
  lemma SelectionRoundTrip(sel: DaySelection)
    requires IsTotal(sel)
    ensures ArrayToDaySelection(DaySelectionToArray(sel)) == sel
  {
    SameTicksSameSelection(ArrayToDaySelection(DaySelectionToArray(sel)), sel);
  }
}

=== FILE: dayview.dfy ===
/** The read-only page for one weekday: whether the day is in the schedule at all, how many
    tasks it holds, how long its flexible tasks take together and how that total is split into
    hours and minutes, the empty-state message, the weekend note on a task and the day-range
    label of a mandatory task. */
module DayView {
  import opened Interfaces
  import opened Calendar
  import opened Text
  import opened Sequences
  import opened Projection
  import opened Durations

  /** The sum of the tasks' lengths in minutes, accumulated from the left as `reduce` does. */
  function TotalDuration(tasks: seq<Task>): int
    decreases |tasks|
  {
    if |tasks| == 0 then 0
    else TotalDuration(tasks[..|tasks| - 1]) + DurationInMinutes(tasks[|tasks| - 1])
  }

  /** The total of two lists one after the other is the sum of their totals. */
  lemma {:induction false} TotalDurationConcat(a: seq<Task>, b: seq<Task>)
    ensures TotalDuration(a + b) == TotalDuration(a) + TotalDuration(b)
    decreases |b|
  {
    if |b| == 0 {
      assert a + b == a;
    } else {
      var init := b[..|b| - 1];
      TotalDurationConcat(a, init);
      assert (a + b)[..|a + b| - 1] == a + init;
      assert (a + b)[|a + b| - 1] == b[|b| - 1];
    }
  }

  /** A task list whose tasks are none of them negative has a total that is not negative and
      at least the length of each of its tasks. */
  lemma {:induction false} TotalDurationBounds(tasks: seq<Task>)
    requires forall i :: 0 <= i < |tasks| ==> DurationInMinutes(tasks[i]) >= 0
    ensures TotalDuration(tasks) >= 0
    ensures forall i :: 0 <= i < |tasks| ==> DurationInMinutes(tasks[i]) <= TotalDuration(tasks)
    decreases |tasks|
  {
    if |tasks| > 0 {
      TotalDurationBounds(tasks[..|tasks| - 1]);
    }
  }

  /** The total of a list is its first task's length plus the total of the rest. */
  lemma TotalDurationCons(x: Task, xs: seq<Task>)
    ensures TotalDuration([x] + xs) == DurationInMinutes(x) + TotalDuration(xs)
  {
    TotalDurationConcat([x], xs);
    assert TotalDuration([x]) == DurationInMinutes(x) by {
      assert [x][..0] == [];
    }
  }

  /** Splitting a list by a test and its negation splits its total the same way. */
  lemma {:induction false} FilterSplitsTotal(xs: seq<Task>, p: Task -> bool, q: Task -> bool)
    requires forall t :: q(t) == !p(t)
    ensures TotalDuration(xs) == TotalDuration(Filter(xs, p)) + TotalDuration(Filter(xs, q))
    decreases |xs|
  {
    if |xs| > 0 {
      var x, tail := xs[0], xs[1..];
      FilterSplitsTotal(tail, p, q);
      assert xs == [x] + tail;
      TotalDurationCons(x, tail);
      if p(x) {
        assert Filter(xs, p) == [x] + Filter(tail, p);
        assert Filter(xs, q) == Filter(tail, q);
        TotalDurationCons(x, Filter(tail, p));
      } else {
        assert Filter(xs, q) == [x] + Filter(tail, q);
        assert Filter(xs, p) == Filter(tail, p);
        TotalDurationCons(x, Filter(tail, q));
      }
    }
  }

  /** Whole hours (`Math.floor(total / 60)`) and the rest (JavaScript's `total % 60`). */
  datatype HoursMinutes = HoursMinutes(hours: int, minutes: int)

  /** The "{h}h {m}m total" split. For a total that is not negative it is the usual split; a
      negative total that is not a whole number of hours shows one hour more than it holds,
      since the hours round down while the minutes keep the total's sign. */
  function SplitDuration(total: int): (r: HoursMinutes)
    ensures total >= 0 ==> 0 <= r.minutes < 60 && r.hours * 60 + r.minutes == total
    ensures total < 0 ==>
      (-60 < r.minutes <= 0
       && r.hours * 60 + r.minutes == (if r.minutes == 0 then total else total - 60))
  {
    HoursMinutes(total / 60, JsRemainder(total, 60))
  }

  /** The summary text of a total. */
  function DurationSummary(total: int): string
  {
    var split := SplitDuration(total);
    IntText(split.hours) + "h " + IntText(split.minutes) + "m total"
  }

  /** A total of minus one minute shows as minus one hour and minus one minute. */
  lemma NegativeDurationSummary()
    ensures SplitDuration(-1) == HoursMinutes(-1, -1)
    ensures DurationSummary(-1) == "-1h -1m total"
  {
    assert IntText(-1) == "-1";
  }

  /** What the page shows: the "not in your active schedule" notice, or the day's summary and
      its mandatory and flexible tasks with the empty-state message when it has none. */
  datatype DayPage =
    | NotScheduled(title: string, notice: string)
    | Scheduled(
        title: string,
        totalTasks: nat,
        totalDuration: int,
        shown: HoursMinutes,
        mandatoryTasks: seq<MandatoryTask>,
        tasks: seq<Task>,
        emptyState: bool)

  /** `DayScheduleView`: the page for `day`, built on the day's projection of the schedule. */
  function RenderDay(s: Schedule, day: Day): (r: DayPage)
    ensures r.NotScheduled? <==> day !in s.activeDays
    ensures r.title == DayLabel(day)
    ensures r.NotScheduled? ==> r.notice == "No schedule for " + DayLabel(day)
  {
    match GetDaySchedule(s, day)
    case None => NotScheduled(DayLabel(day), "No schedule for " + DayLabel(day))
    case Some(ds) =>
      var totalTasks := |ds.tasks| + |ds.mandatoryTasks|;
      var totalDuration := TotalDuration(ds.tasks);
      Scheduled(DayLabel(day), totalTasks, totalDuration, SplitDuration(totalDuration),
        ds.mandatoryTasks, ds.tasks, totalTasks == 0)
  }

  /** The page lists the day's projected tasks, and the count adds up both lists. */
  lemma PageListsProjection(s: Schedule, day: Day)
    requires day in s.activeDays
    ensures var r := RenderDay(s, day);
      r.Scheduled?
      && r.tasks == GetDaySchedule(s, day).value.tasks
      && r.mandatoryTasks == GetDaySchedule(s, day).value.mandatoryTasks
      && r.totalTasks == |r.tasks| + |r.mandatoryTasks|
  {
  }

  /** The count never exceeds the size of the master lists, and reaches it exactly when every
      flexible task shows on the day and every mandatory task's range holds it. */
  lemma TaskCountBound(s: Schedule, day: Day)
    requires day in s.activeDays
    ensures RenderDay(s, day).totalTasks <= |s.tasks| + |s.mandatoryTasks|
    ensures RenderDay(s, day).totalTasks == |s.tasks| + |s.mandatoryTasks| <==>
      (forall t :: t in s.tasks ==> ShouldShowTask(t, day))
      && (forall m :: m in s.mandatoryTasks ==> IsDayInRange(day, m.startDay, m.endDay))
  {
    FilterKeepsCount(s.tasks, ShownOn(day));
    FilterKeepsCount(s.mandatoryTasks, CoversDay(day));
  }

  /** The empty-state message appears on an active day exactly when no flexible task shows on
      it and no mandatory task's range holds it. */
  lemma EmptyStateMeansNothingScheduled(s: Schedule, day: Day)
    requires day in s.activeDays
    ensures RenderDay(s, day).emptyState <==>
      (forall t :: t in s.tasks ==> !ShouldShowTask(t, day))
      && (forall m :: m in s.mandatoryTasks ==> !IsDayInRange(day, m.startDay, m.endDay))
  {
    var ds := GetDaySchedule(s, day).value;
    HeadIsMember(ds.tasks);
    HeadIsMember(ds.mandatoryTasks);
  }

  /** The hours and minutes shown rebuild a total that is not negative, with fewer than sixty
      minutes. */
  lemma ShownSplitRebuildsTotal(s: Schedule, day: Day)
    requires day in s.activeDays
    requires RenderDay(s, day).totalDuration >= 0
    ensures var r := RenderDay(s, day);
      r.shown.hours * 60 + r.shown.minutes == r.totalDuration && 0 <= r.shown.minutes < 60
  {
  }

  /** On Monday to Friday the total counts every flexible task of the schedule. */
  lemma WeekdayTotal(s: Schedule, day: Day)
    requires day in s.activeDays && !IsWeekend(day)
    ensures RenderDay(s, day).totalDuration == TotalDuration(s.tasks)
  {
    WeekdayShowsAllTasks(s, day);
  }

  /** The filter predicate for flexible tasks not marked for weekends. */
  function WeekdaysOnly(): Task -> bool
  {
    (t: Task) => !t.onWeekends
  }

  /** On Saturday and Sunday the total is the schedule's total less the tasks kept to
      weekdays. */
  lemma WeekendTotal(s: Schedule, day: Day)
    requires day in s.activeDays && IsWeekend(day)
    ensures RenderDay(s, day).totalDuration
      == TotalDuration(s.tasks) - TotalDuration(Filter(s.tasks, WeekdaysOnly()))
  {
    FilterSplitsTotal(s.tasks, ShownOn(day), WeekdaysOnly());
  }

  /** `showWeekendNote`: the task is on the page of a weekend day but not marked for weekends. */
  predicate ShowWeekendNote(task: Task, day: Day)
  {
    IsWeekend(day) && !task.onWeekends
  }

  /** The projection never lets such a task onto the page, so no listed task shows the note. */
  lemma NoWeekendNoteShown(s: Schedule, day: Day)
    requires day in s.activeDays
    ensures forall t :: t in RenderDay(s, day).tasks ==> !ShowWeekendNote(t, day)
  {
  }

  /** The day-range line of a mandatory task: "Every <day>" for a one-day range, otherwise
      "<start> - <end>", with the days as their enum strings. */
  function RangeLabel(m: MandatoryTask): string
  {
    if m.startDay == m.endDay then "Every " + DayName(m.startDay)
    else DayName(m.startDay) + " - " + DayName(m.endDay)
  }

  /** The line begins with "Every" exactly when the range is one day, and that day is then the
      only one the range holds. */
  lemma RangeLabelEvery(m: MandatoryTask)
    ensures |RangeLabel(m)| >= 5 && (RangeLabel(m)[..5] == "Every" <==> m.startDay == m.endDay)
    ensures RangeLabel(m)[..5] == "Every" ==>
      forall d :: IsDayInRange(d, m.startDay, m.endDay) <==> d == m.startDay
  {
    var l := RangeLabel(m);
    if m.startDay != m.endDay {
      var n := DayName(m.startDay);
      assert l[0] == n[0];
    } else {
      forall d
        ensures IsDayInRange(d, m.startDay, m.endDay) <==> d == m.startDay
      {
        SingleDayRange(d, m.startDay);
      }
    }
  }

  /** Reads a day-range line back to its first and last day: "Every <day>" as that day twice,
      "<start> - <end>" as the pair; `None` for any other text. */
  function ReadRangeLabel(s: string): Option<(Day, Day)>
  {
    if |s| >= 6 && s[..6] == "Every " then
      match ReadDayName(s[6..])
      case Some(d) => Some((d, d))
      case None => None
    else
      var rest := After(s, ' ');
      if |rest| >= 2 && rest[..2] == "- " then
        match (ReadDayName(Before(s, ' ')), ReadDayName(rest[2..]))
        case (Some(a), Some(b)) => Some((a, b))
        case _ => None
      else None
  }

  /** A one-day line reads back as that day twice. */
  lemma ReadEveryLabel(d: Day)
    ensures ReadRangeLabel("Every " + DayName(d)) == Some((d, d))
  {
    var l := "Every " + DayName(d);
    DayNameRoundTrip(d);
    assert l[..6] == "Every " && l[6..] == DayName(d);
  }

  /** A "<start> - <end>" line reads back as the two days. */
  lemma ReadSpanLabel(a: Day, b: Day)
    ensures ReadRangeLabel(DayName(a) + " - " + DayName(b)) == Some((a, b))
  {
    var first, tail := DayName(a), "- " + DayName(b);
    var l := first + [' '] + tail;
    assert DayName(a) + " - " + DayName(b) == l;
    DayNameRoundTrip(a);
    DayNameRoundTrip(b);
    assert l[..6] != "Every " by {
      assert l[1] == first[1] && 'A' <= first[1] <= 'Z';
      assert "Every "[1] == 'v';
    }
    assert ' ' !in first by {
      forall i | 0 <= i < |first| ensures first[i] != ' ' {
        assert 'A' <= first[i] <= 'Z';
      }
    }
    SplitAtFirst(first, ' ', tail);
    assert Before(l, ' ') == first && After(l, ' ') == tail;
    assert tail[..2] == "- " && tail[2..] == DayName(b);
  }

  /** The day-range line names the task's first and last day, and nothing else. */
  lemma RangeLabelRoundTrip(m: MandatoryTask)
    ensures ReadRangeLabel(RangeLabel(m)) == Some((m.startDay, m.endDay))
  {
    if m.startDay == m.endDay {
      ReadEveryLabel(m.startDay);
    } else {
      ReadSpanLabel(m.startDay, m.endDay);
    }
  }
}

=== FILE: durations.dfy ===
/** The length of a flexible task: its value in minutes and its short display text. */
module Durations {
  import opened Interfaces
  import opened Text

  /** `getDurationInMinutes`. */
  function DurationInMinutes(task: Task): int
  {
    task.duration.hours * 60 + task.duration.minutes
  }

  /** `getTaskDurationString`: "Mm" when there are no hours, "Hh" when there are no minutes,
      "Hh Mm" otherwise; the numbers print as JavaScript prints them. */
  function TaskDurationString(d: Duration): string
  {
    if d.hours == 0 then IntText(d.minutes) + "m"
    else if d.minutes == 0 then IntText(d.hours) + "h"
    else IntText(d.hours) + "h " + IntText(d.minutes) + "m"
  }

  /** The value of a number written as `toString` writes a natural number: non-empty digits
      without a leading zero; nothing for any other text. */
  function ReadNumber(s: string): (r: Option<nat>)
    ensures r.Some? <==> IsNatText(s)
    ensures r.Some? ==> NatText(r.value) == s
  {
    if IsNatText(s) then
      NatTextOfDigits(s);
      Some(ParseDigits(s))
    else None
  }

  /** Reads a duration text back into hours and minutes, accepting exactly the three shapes
      `getTaskDurationString` writes: "Mm", "Hh" with hours other than 0, and "Hh Mm" with
      hours and minutes other than 0, each number without leading zeros. Nothing otherwise. */
  function ReadDuration(s: string): Option<Duration>
  {
    if 'h' in s then
      var hours := ReadNumber(Before(s, 'h'));
      var rest := After(s, 'h');
      if hours.None? || hours.value == 0 then None
      else if rest == "" then Some(Duration(hours.value, 0))
      else if |rest| >= 2 && rest[0] == ' ' && rest[|rest| - 1] == 'm' then
        var minutes := ReadNumber(rest[1..|rest| - 1]);
        if minutes.None? || minutes.value == 0 then None
        else Some(Duration(hours.value, minutes.value))
      else None
    else if |s| > 0 && s[|s| - 1] == 'm' then
      var minutes := ReadNumber(s[..|s| - 1]);
      if minutes.None? then None else Some(Duration(0, minutes.value))
    else None
  }

  /** A digit string holds no 'h'. */
  lemma DigitsHaveNoH(s: string)
    requires AllDigits(s)
    ensures 'h' !in s
  {
  }

  /** The decimal text of a natural number reads back as that number. */
  lemma ReadNatText(n: nat)
    ensures ReadNumber(NatText(n)) == Some(n)
  {
    ParseNatText(n);
  }

  /** Text of the "Mm" shape reads back as no hours and the minutes. */
  lemma ReadMinutesOnly(m: nat)
    ensures ReadDuration(NatText(m) + "m") == Some(Duration(0, m))
  {
    var s := NatText(m) + "m";
    DigitsHaveNoH(NatText(m));
    assert s[..|s| - 1] == NatText(m);
    ReadNatText(m);
  }

  /** Text of the "Hh" shape, which is written only for hours other than 0, reads back as the
      hours and no minutes. */
  lemma ReadHoursOnly(h: nat)
    requires h > 0
    ensures ReadDuration(NatText(h) + "h") == Some(Duration(h, 0))
  {
    DigitsHaveNoH(NatText(h));
    SplitAtFirst(NatText(h), 'h', "");
    assert NatText(h) + "h" == NatText(h) + ['h'] + "";
    ReadNatText(h);
  }

  /** Text of the "Hh Mm" shape, which is written only when neither number is 0, reads back as
      the hours and the minutes. */
  lemma ReadHoursAndMinutes(h: nat, m: nat)
    requires h > 0 && m > 0
    ensures ReadDuration(NatText(h) + "h " + NatText(m) + "m") == Some(Duration(h, m))
  {
    var rest := " " + NatText(m) + "m";
    DigitsHaveNoH(NatText(h));
    SplitAtFirst(NatText(h), 'h', rest);
    assert NatText(h) + "h " + NatText(m) + "m" == NatText(h) + ['h'] + rest;
    assert rest[1..|rest| - 1] == NatText(m);
    ReadNatText(h);
    ReadNatText(m);
  }

  /** For hours and minutes that are not negative, the display text reads back as the duration. */
  lemma DurationStringRoundTrip(d: Duration)
    requires d.hours >= 0 && d.minutes >= 0
    ensures ReadDuration(TaskDurationString(d)) == Some(d)
  {
    if d.hours == 0 {
      ReadMinutesOnly(d.minutes);
    } else if d.minutes == 0 {
      ReadHoursOnly(d.hours);
    } else {
      ReadHoursAndMinutes(d.hours, d.minutes);
    }
  }

  /** Different durations that are not negative display differently. */
  lemma DurationStringInjective(d1: Duration, d2: Duration)
    requires d1.hours >= 0 && d1.minutes >= 0 && d2.hours >= 0 && d2.minutes >= 0
    requires TaskDurationString(d1) == TaskDurationString(d2)
    ensures d1 == d2
  {
    DurationStringRoundTrip(d1);
    DurationStringRoundTrip(d2);
  }

  /** An accepted text with an 'h' is the display text of what it reads. */
  lemma {:induction false} ReadHoursFormCanonical(s: string)
    requires 'h' in s && ReadDuration(s).Some?
    ensures TaskDurationString(ReadDuration(s).value) == s
  {
    var d := ReadDuration(s).value;
    var hourText, rest := Before(s, 'h'), After(s, 'h');
    HoursFormParts(s);
    BeforeAfter(s, 'h');
    if rest == "" {
      assert s == NatText(d.hours) + "h";
    } else {
      AssembleHoursAndMinutes(s, hourText, rest, d);
    }
  }

  /** What the reader learns from an accepted text with an 'h': the hours before it, and either
      nothing after it or a space, the minutes and an 'm'. */
  lemma HoursFormParts(s: string)
    requires 'h' in s && ReadDuration(s).Some?
    ensures var d, rest := ReadDuration(s).value, After(s, 'h');
      NatText(d.hours) == Before(s, 'h') && d.hours != 0
      && (rest == "" ==> d.minutes == 0)
      && (rest != "" ==>
            (|rest| >= 2 && rest[0] == ' ' && rest[|rest| - 1] == 'm'
             && NatText(d.minutes) == rest[1..|rest| - 1] && d.minutes != 0))
  {
  }

  /** An "Hh Mm" text assembled from the display texts of a duration is its display text. */
  lemma AssembleHoursAndMinutes(s: string, hourText: string, rest: string, d: Duration)
    requires s == hourText + ['h'] + rest
    requires d.hours > 0 && d.minutes > 0 && NatText(d.hours) == hourText
    requires |rest| >= 2 && rest[0] == ' ' && rest[|rest| - 1] == 'm'
    requires NatText(d.minutes) == rest[1..|rest| - 1]
    ensures TaskDurationString(d) == s
  {
    assert rest == " " + NatText(d.minutes) + "m";
  }

  /** An accepted text without an 'h' is the display text of what it reads. */
  lemma {:induction false} ReadMinutesFormCanonical(s: string)
    requires 'h' !in s && ReadDuration(s).Some?
    ensures TaskDurationString(ReadDuration(s).value) == s
  {
    var minuteText := s[..|s| - 1];
    var m := ReadNumber(minuteText).value;
    assert ReadDuration(s) == Some(Duration(0, m));
    assert NatText(m) == minuteText;
    assert s == minuteText + "m";
  }

  /** Every text the reader accepts is exactly the display text of what it reads: so the reader
      accepts no other spelling, and each duration has the one shape `getTaskDurationString`
      chooses for it. */
  lemma ReadDurationCanonical(s: string)
    ensures ReadDuration(s).Some? ==> TaskDurationString(ReadDuration(s).value) == s
  {
    if ReadDuration(s).Some? {
      if 'h' in s {
        ReadHoursFormCanonical(s);
      } else {
        ReadMinutesFormCanonical(s);
      }
    }
  }

  /** Always writing the hours is not what the display does: half an hour is "30m", and
      "0h 30m" reads as no duration. */
  lemma NoZeroHours()
    ensures TaskDurationString(Duration(0, 30)) == "30m"
    ensures ReadDuration("0h 30m").None?
  {
    assert NatText(30) == "30";
    assert Before("0h 30m", 'h') == "0";
    assert NatText(0) == "0";
  }
}

=== FILE: factories.dfy ===
/** The fixed defaults of a newly added task and mandatory task, and the colour palette.
    The identifier, which the frontend draws at random, is a parameter. */
module Factories {
  import opened Interfaces
  import opened Calendar
  import opened Clock
  import opened Projection
  import opened Durations

  /** `DEFAULT_COLORS`: blue, red, green, yellow, purple, orange, cyan, lime. */
  const DefaultColors: seq<string> :=
    ["#3B82F6", "#EF4444", "#10B981", "#F59E0B", "#8B5CF6", "#F97316", "#06B6D4", "#84CC16"]

  /** `createEmptyTask`: an unnamed one-hour task for weekdays, once a week, blue, of medium
      priority and without a preferred time of day. */
  function CreateEmptyTask(id: string): (t: Task)
    ensures t.id == id && t.summary == ""
    ensures DurationInMinutes(t) == 60
    ensures forall d :: ShouldShowTask(t, d) <==> !IsWeekend(d)
    ensures t.frequency == 1 && t.preferredTime.None? && t.priority == Some(Medium)
    ensures t.color == Some(DefaultColors[0])
  {
    Task(id, "", Duration(1, 0), false, None, 1, Some("#3B82F6"), Some(Medium))
  }

  /** `createEmptyMandatoryTask`: an unnamed Monday-to-Friday commitment from 09:00 to 17:00,
      red, without a location. */
  function CreateEmptyMandatoryTask(id: string): (m: MandatoryTask)
    ensures m.id == id && m.summary == "" && m.location.None?
    ensures forall d :: IsDayInRange(d, m.startDay, m.endDay) <==> !IsWeekend(d)
    ensures m.startTime == MinutesToTime(540) && m.endTime == MinutesToTime(1020)
    ensures m.color == Some(DefaultColors[1])
  {
    MandatoryTask(id, "", "09:00", "17:00", Monday, Friday, Some("#EF4444"), None)
  }

  /** The new mandatory task's times are a valid range: nine in the morning (minute 540) to
      five in the afternoon (minute 1020). */
  lemma EmptyMandatoryTaskHours(id: string)
    ensures var m := CreateEmptyMandatoryTask(id);
      IsValidTime(m.startTime) && IsValidTime(m.endTime)
      && TimeToMinutes(m.startTime) == 540 && TimeToMinutes(m.endTime) == 1020
      && IsTimeRangeValid(m.startTime, m.endTime)
  {
  }

  /** The new task displays as "1h". */
  lemma EmptyTaskDisplay(id: string)
    ensures TaskDurationString(CreateEmptyTask(id).duration) == "1h"
  {
    assert Text.NatText(1) == "1";
  }
}

=== FILE: interfaces.dfy ===
/** The records of the weekly master schedule: the seven-day enumeration, flexible tasks,
    mandatory (fixed-time) tasks, the schedule itself, the per-day projection and the
    day-selection map used by the editor's check boxes. */
module Interfaces {

  /** A closed enumeration of exactly seven weekdays; calendar order is Monday..Sunday. */
  datatype Day = Monday | Tuesday | Wednesday | Thursday | Friday | Saturday | Sunday

  /** A value that may be absent (`undefined` or `null` in the frontend). */
  datatype Option<T> = None | Some(value: T)

  /** The optional `preferredTime` of a flexible task. */
  datatype TimeOfDay = Morning | Afternoon | Evening | Night

  /** The optional `priority` of a flexible task. */
  datatype Priority = Low | Medium | High

  /** The length of a flexible task; the editor's inputs are `parseInt` results, so any integer. */
  datatype Duration = Duration(hours: int, minutes: int)

  /** A recurring task without a fixed time slot. `frequency` is meant to lie in
      1..(number of active days); the editor only offers those values. */
  datatype Task = Task(
    id: string,
    summary: string,
    duration: Duration,
    onWeekends: bool,
    preferredTime: Option<TimeOfDay>,
    frequency: int,
    color: Option<string>,
    priority: Option<Priority>)

  /** A fixed-time commitment repeated over the inclusive, possibly wrap-around day range
      `startDay`..`endDay`; the times are meant to be "HH:MM" 24-hour strings. */
  datatype MandatoryTask = MandatoryTask(
    id: string,
    summary: string,
    startTime: string,
    endTime: string,
    startDay: Day,
    endDay: Day,
    color: Option<string>,
    location: Option<string>)

  /** A point in time; only stored and replaced, never inspected. */
  datatype Timestamp = Timestamp(millis: int)

  /** The master schedule. `activeDays` is a list, so it may hold a day twice. */
  datatype Schedule = Schedule(
    id: string,
    name: string,
    startTime: string,
    endTime: string,
    activeDays: seq<Day>,
    tasks: seq<Task>,
    mandatoryTasks: seq<MandatoryTask>,
    createdAt: Timestamp,
    updatedAt: Timestamp)

  /** One weekday's view of the master schedule. */
  datatype DaySchedule = DaySchedule(
    day: Day,
    startTime: string,
    endTime: string,
    tasks: seq<Task>,
    mandatoryTasks: seq<MandatoryTask>)

  /** Check-box state: a boolean per weekday. A missing key reads as `undefined`, i.e. false. */
  type DaySelection = map<Day, bool>
}

=== FILE: labels.dfy ===
/** `getActiveDaysString`: the summary of a schedule's active days shown in the editor. */
module Labels {
  import opened Interfaces
  import opened Calendar
  import opened Text
  import opened Sequences

  /** Every day of the week. */
  const AllDays: set<Day> := {Monday, Tuesday, Wednesday, Thursday, Friday, Saturday, Sunday}

  /** The display names of `days`, in order. */
  function DayLabels(days: seq<Day>): (r: seq<string>)
    ensures |r| == |days|
    ensures forall i :: 0 <= i < |days| ==> r[i] == DayLabel(days[i])
  {
    seq(|days|, i requires 0 <= i < |days| => DayLabel(days[i]))
  }

  /** `getActiveDaysString`: shorthands for no days, seven days, Monday to Friday and the
      weekend, otherwise the day names joined by ", " in list order. The shorthands are decided
      on the list's length and membership tests, so a list may repeat a day. */
  function ActiveDaysString(s: Schedule): string
  {
    var days := s.activeDays;
    if |days| == 0 then "No days selected"
    else if |days| == 7 then "Every day"
    else if |days| == 5 && Monday in days && Tuesday in days && Wednesday in days
      && Thursday in days && Friday in days then "Weekdays"
    else if |days| == 2 && Saturday in days && Sunday in days then "Weekends"
    else Join(DayLabels(days), ", ")
  }

  /** A joined list of day names begins with a day's initial, and with at least nine characters
      when that initial is 'W': so it is never one of the shorthands. */
  lemma ListedLabelShape(days: seq<Day>)
    requires |days| > 0
    ensures var r := Join(DayLabels(days), ", ");
      |r| > 0 && r[0] in {'M', 'T', 'W', 'F', 'S'} && (r[0] == 'W' ==> |r| >= 9)
      && r != "No days selected" && r != "Every day" && r != "Weekdays" && r != "Weekends"
  {
    var labels := DayLabels(days);
    var r := Join(labels, ", ");
    var l := labels[0];
    assert |r| >= |l| && r[..|l|] == l;
    assert r[0] == l[0] && (l[0] == 'W' ==> |l| == 9);
  }

  /** The lists `getActiveDaysString` replaces by a shorthand: none, seven entries, five holding
      Monday to Friday, or two holding Saturday and Sunday. */
  predicate HasShorthand(days: seq<Day>)
  {
    |days| == 0 || |days| == 7
    || (|days| == 5 && Monday in days && Tuesday in days && Wednesday in days
        && Thursday in days && Friday in days)
    || (|days| == 2 && Saturday in days && Sunday in days)
  }

  /** Reads a list of display names back to days; `None` when any name is not a day's. */
  function ReadDayLabels(names: seq<string>): (r: Option<seq<Day>>)
    ensures r.Some? ==> |r.value| == |names|
    ensures r.Some? ==> forall i :: 0 <= i < |names| ==> DayLabel(r.value[i]) == names[i]
    decreases |names|
  {
    if |names| == 0 then Some([])
    else match (ReadDayLabel(names[0]), ReadDayLabels(names[1..]))
      case (Some(d), Some(ds)) => Some([d] + ds)
      case _ => None
  }

  /** Reads an active-days text back to the days it names, one per ", "-separated piece. */
  function ReadDays(text: string): Option<seq<Day>>
  {
    ReadDayLabels(SplitList(text))
  }

  /** Reading the display names of a list of days gives the list back, repeats and order included. */
  lemma {:induction false} ReadDayLabelsInverse(days: seq<Day>)
    ensures ReadDayLabels(DayLabels(days)) == Some(days)
    decreases |days|
  {
    if |days| > 0 {
      DayLabelRoundTrip(days[0]);
      ReadDayLabelsInverse(days[1..]);
      assert DayLabels(days)[1..] == DayLabels(days[1..]);
      assert days == [days[0]] + days[1..];
    }
  }

  /** The fallback text names exactly the listed days, in list order and with repeats. */
  lemma ListedDaysRoundTrip(days: seq<Day>)
    requires |days| > 0
    ensures ReadDays(Join(DayLabels(days), ", ")) == Some(days)
  {
    var labels := DayLabels(days);
    forall i | 0 <= i < |labels| ensures ',' !in labels[i] {
      DayLabelRoundTrip(days[i]);
    }
    SplitJoin(labels);
    ReadDayLabelsInverse(days);
  }

  /** A list without a shorthand is shown as text that reads back as exactly that list; every
      shorthand reads back as no list of days at all. */
  lemma ActiveDaysStringReadBack(s: Schedule)
    ensures ReadDays(ActiveDaysString(s)) == if HasShorthand(s.activeDays) then None else Some(s.activeDays)
  {
    if !HasShorthand(s.activeDays) {
      ListedDaysRoundTrip(s.activeDays);
    } else {
      ShorthandsNameNoDays(ActiveDaysString(s));
    }
  }

  /** None of the shorthand texts reads as a list of days. */
  lemma ShorthandsNameNoDays(t: string)
    requires t == "No days selected" || t == "Every day" || t == "Weekdays" || t == "Weekends"
    ensures ReadDays(t) == None
  {
    NotADayName(t);
  }

  /** A text without ',' that is no day's display name reads as no list of days. */
  lemma NotADayName(t: string)
    requires ',' !in t
    requires ReadDayLabel(t).None?
    ensures ReadDays(t) == None
  {
    NoCommaIsOnePiece(t);
  }

  /** A text without ',' is one piece. */
  lemma NoCommaIsOnePiece(t: string)
    requires ',' !in t
    ensures SplitList(t) == [t]
  {
    assert NoListSeparator(t) by {
      forall i | 0 <= i < |t| - 1 ensures t[i] != ',' || t[i + 1] != ' ' {
        assert t[i] in t;
      }
    }
    SplitWithoutSeparator(t);
  }

  /** Two names separated by a bare ',' are no list of days: only ", " separates. */
  lemma BareCommaNamesNoDays(a: Day, b: Day)
    ensures ReadDays(DayLabel(a) + "," + DayLabel(b)) == None
  {
    var first, second := DayLabel(a), DayLabel(b);
    var t := first + "," + second;
    DayLabelRoundTrip(a);
    DayLabelRoundTrip(b);
    assert NoListSeparator(t) by {
      forall i | 0 <= i < |t| - 1 ensures t[i] != ',' || t[i + 1] != ' ' {
        if i < |first| {
          assert t[i] == first[i];
        } else if i == |first| {
          assert t[i + 1] == second[0];
        } else {
          assert t[i] == second[i - |first| - 1];
        }
      }
    }
    SplitWithoutSeparator(t);
    assert t[|first|] == ',';
    if ReadDayLabel(t).Some? {
      assert ',' in DayLabel(ReadDayLabel(t).value);
      DayLabelRoundTrip(ReadDayLabel(t).value);
    }
  }

  /** A text that reads as days is exactly those days' display names joined by ", ". */
  lemma ReadDaysCanonical(text: string)
    ensures ReadDays(text).Some? ==> Join(DayLabels(ReadDays(text).value), ", ") == text
  {
    if ReadDays(text).Some? {
      var days := ReadDays(text).value;
      assert DayLabels(days) == SplitList(text);
      JoinSplit(text);
    }
  }

  /** The converse of `ActiveDaysStringReadBack`: a text that reads as a list of days without a
      shorthand is the label of every schedule with exactly those active days. */
  lemma ActiveDaysStringCanonical(s: Schedule, text: string)
    requires ReadDays(text) == Some(s.activeDays) && !HasShorthand(s.activeDays)
    ensures ActiveDaysString(s) == text
  {
    ReadDaysCanonical(text);
  }

  /** The label says "No days selected" exactly when there are no active days. */
  lemma NoDaysLabel(s: Schedule)
    ensures ActiveDaysString(s) == "No days selected" <==> |s.activeDays| == 0
  {
    if |s.activeDays| > 0 {
      ListedLabelShape(s.activeDays);
    }
  }

  /** Five positions holding Monday to Friday leave no room for a weekend day. */
  lemma FiveWeekdaysOnly(days: seq<Day>)
    requires |days| == 5
    requires Monday in days && Tuesday in days && Wednesday in days && Thursday in days && Friday in days
    ensures forall d :: d in days <==> !IsWeekend(d)
  {
    forall d | IsWeekend(d)
      ensures d !in days
    {
      if d in days {
        SubsetCardinality({Monday, Tuesday, Wednesday, Thursday, Friday, d}, Elems(days));
        ElemsCardinality(days);
      }
    }
  }

  /** Two positions holding Saturday and Sunday leave no room for another day. */
  lemma TwoWeekendDaysOnly(days: seq<Day>)
    requires |days| == 2 && Saturday in days && Sunday in days
    ensures forall d :: d in days <==> IsWeekend(d)
  {
    forall d | !IsWeekend(d)
      ensures d !in days
    {
      if d in days {
        SubsetCardinality({Saturday, Sunday, d}, Elems(days));
        ElemsCardinality(days);
      }
    }
  }

  /** The label says "Weekdays" exactly when the active days are Monday to Friday, each once,
      in any order. */
  lemma WeekdaysLabel(s: Schedule)
    ensures ActiveDaysString(s) == "Weekdays" <==>
      |s.activeDays| == 5 && forall d :: d in s.activeDays <==> !IsWeekend(d)
  {
    var days := s.activeDays;
    var listed := |days| == 5 && Monday in days && Tuesday in days && Wednesday in days
      && Thursday in days && Friday in days;
    if listed {
      FiveWeekdaysOnly(days);
    } else if |days| > 0 {
      ListedLabelShape(days);
    }
  }

  /** The label says "Weekends" exactly when the active days are Saturday and Sunday, each once,
      in either order. */
  lemma WeekendsLabel(s: Schedule)
    ensures ActiveDaysString(s) == "Weekends" <==>
      |s.activeDays| == 2 && forall d :: d in s.activeDays <==> IsWeekend(d)
  {
    var days := s.activeDays;
    if |days| == 2 && Saturday in days && Sunday in days {
      TwoWeekendDaysOnly(days);
    } else if |days| > 0 {
      ListedLabelShape(days);
    }
  }

  /** `AllDays` holds every day, seven in all, and so holds the members of any list of days. */
  lemma AllDaysComplete(days: seq<Day>)
    ensures |AllDays| == 7 && forall d :: d in AllDays
    ensures Elems(days) <= AllDays
  {
    forall d
      ensures d in AllDays
    {
      match d
      case Monday => case Tuesday => case Wednesday => case Thursday =>
      case Friday => case Saturday => case Sunday =>
    }
  }

  /** Seven different days are all the days. */
  lemma SevenDistinctDays(days: seq<Day>)
    requires Distinct(days) && |days| == 7
    ensures forall d :: d in days
  {
    ElemsCardinality(days);
    AllDaysComplete(days);
    forall d
      ensures d in days
    {
      if d !in days {
        assert |AllDays - {d}| == 6;
        SubsetCardinality(Elems(days), AllDays - {d});
      }
    }
  }

  /** A list holding every day, none twice, has seven entries. */
  lemma AllDaysDistinct(days: seq<Day>)
    requires Distinct(days) && forall d :: d in days
    ensures |days| == 7
  {
    ElemsCardinality(days);
    AllDaysComplete(days);
    SubsetCardinality(Elems(days), AllDays);
    SubsetCardinality(AllDays, Elems(days));
  }

  /** For a list without repeats, the label says "Every day" exactly when every day is active. */
  lemma EveryDayLabel(s: Schedule)
    requires Distinct(s.activeDays)
    ensures ActiveDaysString(s) == "Every day" <==> forall d :: d in s.activeDays
  {
    var days := s.activeDays;
    if |days| == 7 {
      SevenDistinctDays(days);
    } else {
      if |days| > 0 {
        ListedLabelShape(days);
      }
      if forall d :: d in days {
        AllDaysDistinct(days);
      }
    }
  }

  /** The "Every day" shorthand looks at the count alone: seven Mondays are "Every day". */
  lemma RepeatedDayIsEveryDay(s: Schedule)
    requires s.activeDays == [Monday, Monday, Monday, Monday, Monday, Monday, Monday]
    ensures ActiveDaysString(s) == "Every day"
  {
  }
}

=== FILE: projection.dfy ===
/** The per-day view of the master schedule: which flexible tasks show on a day (the
    weekend policy) and which mandatory tasks cover it (the day range). */
module Projection {
  import opened Interfaces
  import opened Calendar
  import opened Sequences

  /** `shouldShowTask`: on Saturday and Sunday only tasks marked for weekends show;
      on the other days every task does. */
  predicate ShouldShowTask(task: Task, day: Day)
  {
    if IsWeekend(day) then task.onWeekends else true
  }

  /** The filter predicate for flexible tasks on `day`. */
  function ShownOn(day: Day): Task -> bool
  {
    (t: Task) => ShouldShowTask(t, day)
  }

  /** The filter predicate for mandatory tasks whose day range holds `day`. */
  function CoversDay(day: Day): MandatoryTask -> bool
  {
    (m: MandatoryTask) => IsDayInRange(day, m.startDay, m.endDay)
  }

  /** `getDaySchedule`: nothing when `day` is not active; otherwise the day with the schedule's
      times, the tasks shown on it and the mandatory tasks whose range holds it, each list
      keeping the master schedule's order. */
  function GetDaySchedule(s: Schedule, day: Day): (r: Option<DaySchedule>)
    ensures r.None? <==> day !in s.activeDays
    ensures r.Some? ==>
      r.value.day == day && r.value.startTime == s.startTime && r.value.endTime == s.endTime
    ensures r.Some? ==>
      IsSubsequence(r.value.tasks, s.tasks)
      && (forall t :: t in r.value.tasks <==> t in s.tasks && ShouldShowTask(t, day))
      && (forall t :: multiset(r.value.tasks)[t]
            == if ShouldShowTask(t, day) then multiset(s.tasks)[t] else 0)
    ensures r.Some? ==>
      IsSubsequence(r.value.mandatoryTasks, s.mandatoryTasks)
      && (forall m :: m in r.value.mandatoryTasks <==>
            m in s.mandatoryTasks && IsDayInRange(day, m.startDay, m.endDay))
      && (forall m :: multiset(r.value.mandatoryTasks)[m]
            == if IsDayInRange(day, m.startDay, m.endDay) then multiset(s.mandatoryTasks)[m] else 0)
  {
    if day !in s.activeDays then None
    else
      FilterCounts(s.tasks, ShownOn(day));
      FilterCounts(s.mandatoryTasks, CoversDay(day));
      Some(DaySchedule(day, s.startTime, s.endTime,
        Filter(s.tasks, ShownOn(day)), Filter(s.mandatoryTasks, CoversDay(day))))
  }

  /** On Monday to Friday an active day shows every flexible task, in order. */
  lemma WeekdayShowsAllTasks(s: Schedule, day: Day)
    requires day in s.activeDays && !IsWeekend(day)
    ensures GetDaySchedule(s, day).value.tasks == s.tasks
  {
    FilterKeepsAll(s.tasks, ShownOn(day));
  }

  /** On Saturday and Sunday an active day shows exactly the tasks marked for weekends. */
  lemma WeekendShowsWeekendTasks(s: Schedule, day: Day)
    requires day in s.activeDays && IsWeekend(day)
    ensures forall t :: t in GetDaySchedule(s, day).value.tasks <==> t in s.tasks && t.onWeekends
    ensures forall t ::
      multiset(GetDaySchedule(s, day).value.tasks)[t] == if t.onWeekends then multiset(s.tasks)[t] else 0
  {
  }

  /** A mandatory task shows on an active day exactly when the day is met walking forward from
      the task's first day to its last. */
  lemma MandatoryTasksFollowWalk(s: Schedule, day: Day, m: MandatoryTask)
    requires day in s.activeDays
    ensures m in GetDaySchedule(s, day).value.mandatoryTasks <==>
      m in s.mandatoryTasks && day in Walk(m.startDay, Offset(m.startDay, m.endDay) + 1)
  {
    RangeIsForwardWalk(day, m.startDay, m.endDay);
  }

  /** A task added at the end of the master list shows at the end of a day's list exactly when
      that day shows it. */
  lemma ProjectAppendedTask(s: Schedule, t: Task, day: Day)
    requires day in s.activeDays
    ensures GetDaySchedule(s.(tasks := s.tasks + [t]), day).value.tasks
      == GetDaySchedule(s, day).value.tasks + (if ShouldShowTask(t, day) then [t] else [])
  {
    FilterSnoc(s.tasks, t, ShownOn(day));
  }

  /** A mandatory task added at the end of the master list shows at the end of a day's list
      exactly when its range holds that day. */
  lemma ProjectAppendedMandatoryTask(s: Schedule, m: MandatoryTask, day: Day)
    requires day in s.activeDays
    ensures GetDaySchedule(s.(mandatoryTasks := s.mandatoryTasks + [m]), day).value.mandatoryTasks
      == GetDaySchedule(s, day).value.mandatoryTasks + (if IsDayInRange(day, m.startDay, m.endDay) then [m] else [])
  {
    FilterSnoc(s.mandatoryTasks, m, CoversDay(day));
  }
}

=== FILE: sequences.dfy ===
/** Generic sequence operations behind the schedule model: the order-preserving
    filter and the pointwise conditional map that `Array.prototype.filter` and
    `Array.prototype.map` perform in the editor, subsequences, and strict sortedness. */
module Sequences {

  /** `a` can be obtained from `b` by deleting elements (greedy matching). */
  predicate IsSubsequence<T(==)>(a: seq<T>, b: seq<T>)
    decreases |b|
  {
    if |a| == 0 then true
    else if |b| == 0 then false
    else if a[0] == b[0] then IsSubsequence(a[1..], b[1..])
    else IsSubsequence(a, b[1..])
  }

  /** The elements of `xs` that satisfy `p`, in their original order. */
  function Filter<T(==,!new)>(xs: seq<T>, p: T -> bool): (r: seq<T>)
    ensures |r| <= |xs|
    ensures forall i :: 0 <= i < |r| ==> p(r[i])
    ensures forall x :: x in r <==> x in xs && p(x)
    ensures IsSubsequence(r, xs)
  {
    if |xs| == 0 then []
    else
      var rest := Filter(xs[1..], p);
      assert forall x :: x in xs <==> x == xs[0] || x in xs[1..];
      if p(xs[0]) then
        assert ([xs[0]] + rest)[1..] == rest;
        [xs[0]] + rest
      else
        rest
  }

  /** The filter keeps every copy of an element that passes and no copy of one that fails. */
  lemma {:induction false} FilterCounts<T(!new)>(xs: seq<T>, p: T -> bool)
    ensures forall x :: multiset(Filter(xs, p))[x] == if p(x) then multiset(xs)[x] else 0
    decreases |xs|
  {
    if |xs| > 0 {
      var y, rest := xs[0], Filter(xs[1..], p);
      FilterCounts(xs[1..], p);
      assert xs == [y] + xs[1..];
      assert multiset(xs) == multiset{y} + multiset(xs[1..]);
      if p(y) {
        assert Filter(xs, p) == [y] + rest;
        assert multiset([y] + rest) == multiset{y} + multiset(rest);
      } else {
        assert Filter(xs, p) == rest;
      }
    }
  }

  /** Filtering distributes over concatenation: the filter keeps each element on its own merits. */
  lemma {:induction false} FilterConcat<T(!new)>(a: seq<T>, b: seq<T>, p: T -> bool)
    ensures Filter(a + b, p) == Filter(a, p) + Filter(b, p)
    decreases |a|
  {
    if |a| == 0 {
      assert a + b == b;
    } else {
      assert (a + b)[1..] == a[1..] + b;
      FilterConcat(a[1..], b, p);
    }
  }

  /** Appending one element extends the filter by that element exactly when it passes. */
  lemma FilterSnoc<T(!new)>(xs: seq<T>, x: T, p: T -> bool)
    ensures Filter(xs + [x], p) == Filter(xs, p) + (if p(x) then [x] else [])
  {
    FilterConcat(xs, [x], p);
    assert Filter([x], p) == (if p(x) then [x] else []) by {
      assert [x][1..] == [];
      assert Filter([x][1..], p) == [];
    }
  }

  /** A filter that every element passes returns its input unchanged. */
  lemma {:induction false} FilterKeepsAll<T(!new)>(xs: seq<T>, p: T -> bool)
    requires forall i :: 0 <= i < |xs| ==> p(xs[i])
    ensures Filter(xs, p) == xs
    decreases |xs|
  {
    if |xs| > 0 {
      FilterKeepsAll(xs[1..], p);
      assert [xs[0]] + xs[1..] == xs;
    }
  }

  /** Filtering a strictly sorted sequence leaves it strictly sorted. */
  lemma {:induction false} FilterSorted<T(!new)>(xs: seq<T>, p: T -> bool, less: (T, T) -> bool)
    requires StrictlySorted(xs, less)
    ensures StrictlySorted(Filter(xs, p), less)
    decreases |xs|
  {
    if |xs| > 0 {
      FilterSorted(xs[1..], p, less);
      var rest := Filter(xs[1..], p);
      if p(xs[0]) {
        forall j | 0 <= j < |rest|
          ensures less(xs[0], rest[j])
        {
          assert rest[j] in xs[1..];
          var k :| 0 <= k < |xs[1..]| && xs[1..][k] == rest[j];
          assert xs[k + 1] == rest[j];
        }
      }
    }
  }

  /** A filter keeps every element exactly when it keeps as many elements as it is given. */
  lemma {:induction false} FilterKeepsCount<T(!new)>(xs: seq<T>, p: T -> bool)
    ensures |Filter(xs, p)| == |xs| <==> forall x :: x in xs ==> p(x)
    decreases |xs|
  {
    if |xs| > 0 {
      FilterKeepsCount(xs[1..], p);
      assert forall x :: x in xs <==> x == xs[0] || x in xs[1..];
    }
  }

  /** Replaces, in order, every element selected by `sel` with its image under `f`. */
  function MapWhere<T>(xs: seq<T>, sel: T -> bool, f: T -> T): (r: seq<T>)
    ensures |r| == |xs|
    ensures forall i :: 0 <= i < |xs| ==> r[i] == (if sel(xs[i]) then f(xs[i]) else xs[i])
  {
    if |xs| == 0 then []
    else [if sel(xs[0]) then f(xs[0]) else xs[0]] + MapWhere(xs[1..], sel, f)
  }

  /** Optionally taking the head of `b` keeps a subsequence of its tail a subsequence of `b`,
      provided the head does not occur in that subsequence. */
  lemma SubsequenceOptionalHead<T>(c: bool, x: T, a: seq<T>, b: seq<T>)
    requires IsSubsequence(a, b) && x !in a
    ensures IsSubsequence((if c then [x] else []) + a, [x] + b)
  {
    var r := (if c then [x] else []) + a;
    if c {
      assert r[0] == x && r[1..] == a;
    } else {
      assert r == a;
      assert ([x] + b)[1..] == b;
    }
  }

  /** Concatenation is associative. */
  lemma ConcatAssociates<T>(a: seq<T>, b: seq<T>, c: seq<T>)
    ensures (a + b) + c == a + (b + c)
  {
  }

  /** The set of members of `xs`. */
  function Elems<T>(xs: seq<T>): set<T>
  {
    set x | x in xs
  }

  /** No element occurs twice. */
  predicate Distinct<T(==)>(xs: seq<T>)
  {
    forall i, j :: 0 <= i < j < |xs| ==> xs[i] != xs[j]
  }

  /** A sequence has at least as many positions as members, and exactly as many when no
      element occurs twice. */
  lemma {:induction false} ElemsCardinality<T>(xs: seq<T>)
    ensures |Elems(xs)| <= |xs|
    ensures Distinct(xs) ==> |Elems(xs)| == |xs|
    decreases |xs|
  {
    if |xs| > 0 {
      ElemsCardinality(xs[1..]);
      assert Elems(xs) == Elems(xs[1..]) + {xs[0]};
      if Distinct(xs) {
        assert Distinct(xs[1..]);
        assert xs[0] !in Elems(xs[1..]);
      }
    }
  }

  /** A subset has at most as many elements as its superset. */
  lemma SubsetCardinality<T>(a: set<T>, b: set<T>)
    requires a <= b
    ensures |a| <= |b|
  {
    assert b == a + (b - a);
  }

  /** Every earlier element is `less` than every later one. */
  predicate StrictlySorted<T>(xs: seq<T>, less: (T, T) -> bool)
  {
    forall i, j :: 0 <= i < j < |xs| ==> less(xs[i], xs[j])
  }

  /** The first element of a non-empty sequence is one of its members. */
  lemma HeadIsMember<T>(xs: seq<T>)
    ensures |xs| > 0 ==> xs[0] in xs
  {
  }

  /** Two strictly sorted sequences with the same members are equal, for any asymmetric
      order: sortedness pins down both the order and the absence of duplicates. */
  lemma {:induction false} SortedUnique<T(!new)>(a: seq<T>, b: seq<T>, less: (T, T) -> bool)
    requires forall x, y :: less(x, y) ==> !less(y, x)
    requires StrictlySorted(a, less) && StrictlySorted(b, less)
    requires forall x :: x in a <==> x in b
    ensures a == b
    decreases |a|
  {
    HeadIsMember(a);
    HeadIsMember(b);
    if |a| == 0 {
      assert |b| == 0;
    } else {
      var a0, b0 := a[0], b[0];
      assert a[0] == b[0] by {
        var j :| 0 <= j < |b| && b[j] == a0;
        var i :| 0 <= i < |a| && a[i] == b0;
        assert j == 0 || less(b0, a0);
        assert i == 0 || less(a0, b0);
      }
      forall x
        ensures x in a[1..] <==> x in b[1..]
      {
        if x in a[1..] {
          var i :| 0 <= i < |a[1..]| && a[1..][i] == x;
          assert less(a[0], a[i + 1]);
          assert x != a[0];
          assert x in b;
        }
        if x in b[1..] {
          var i :| 0 <= i < |b[1..]| && b[1..][i] == x;
          assert less(b[0], b[i + 1]);
          assert x != b[0];
          assert x in a;
        }
      }
      SortedUnique(a[1..], b[1..], less);
      assert a == [a[0]] + a[1..];
      assert b == [b[0]] + b[1..];
    }
  }
}

=== FILE: text.dfy ===
/** The string operations of the JavaScript runtime that the schedule code relies on:
    decimal rendering of integers (`toString`), decimal parsing of digit strings
    (`Number`), `padStart`, `join`, `trim`, and splitting at the first separator. */
module Text {

  predicate IsDigit(c: char)
  {
    '0' <= c <= '9'
  }

  predicate AllDigits(s: string)
  {
    forall i :: 0 <= i < |s| ==> IsDigit(s[i])
  }

  /** The character of a decimal digit. */
  function DigitChar(d: nat): (c: char)
    requires d < 10
    ensures IsDigit(c) && c as int - '0' as int == d
  {
    ('0' as int + d) as char
  }

  /** The value of a decimal digit character. */
  function DigitValue(c: char): (d: nat)
    requires IsDigit(c)
    ensures d < 10 && '0' as int + d == c as int
  {
    c as int - '0' as int
  }

  /** A digit character is the digit of its own value. */
  lemma DigitCharOfValue(c: char)
    requires IsDigit(c)
    ensures DigitChar(DigitValue(c)) == c
  {
  }

  /** The value of a digit's character is the digit. */
  lemma DigitValueOfChar(d: nat)
    requires d < 10
    ensures DigitValue(DigitChar(d)) == d
  {
  }

  /** Decimal text of a natural number, without leading zeros (`n.toString()`). */
  function NatText(n: nat): (r: string)
    ensures |r| > 0 && AllDigits(r)
    ensures |r| == 1 <==> n < 10
    ensures |r| > 1 ==> r[0] != '0'
  {
    if n < 10 then [DigitChar(n)]
    else NatText(n / 10) + [DigitChar(n % 10)]
  }

  /** Decimal text of an integer, with a leading '-' when negative (`i.toString()`). */
  function IntText(i: int): (r: string)
    ensures |r| > 0
    ensures i >= 0 ==> r == NatText(i)
    ensures i < 0 ==> r[0] == '-' && r[1..] == NatText(-i)
  {
    if i < 0 then "-" + NatText(-i) else NatText(i)
  }

  /** The shape `IntText` produces: decimal digits, after a '-' when the number is negative. */
  predicate IsIntText(s: string)
  {
    |s| > 0 && if s[0] == '-' then |s| > 1 && AllDigits(s[1..]) else AllDigits(s)
  }

  /** `Number(s)` on an integer text: the value of its digits, negated after a '-'. */
  function ParseIntText(s: string): int
    requires IsIntText(s)
  {
    if s[0] == '-' then -(ParseDigits(s[1..]) as int) else ParseDigits(s)
  }

  /** The decimal text of an integer has the integer shape and reads back as the integer. */
  lemma IntTextRoundTrip(i: int)
    ensures IsIntText(IntText(i))
    ensures ParseIntText(IntText(i)) == i
  {
    if i < 0 {
      ParseNatText(-i);
    } else {
      ParseNatText(i);
    }
  }

  /** The value of a string of decimal digits (`Number(s)` on such strings; the empty string is 0). */
  function ParseDigits(s: string): nat
    requires AllDigits(s)
  {
    if |s| == 0 then 0
    else ParseDigits(s[..|s| - 1]) * 10 + DigitValue(s[|s| - 1])
  }

  /** Reading back the decimal text of a number yields the number. */
  lemma {:induction false} ParseNatText(n: nat)
    ensures ParseDigits(NatText(n)) == n
    decreases n
  {
    if n >= 10 {
      var t := NatText(n / 10) + [DigitChar(n % 10)];
      assert t[..|t| - 1] == NatText(n / 10);
      ParseNatText(n / 10);
    }
  }

  /** The shape `toString` gives a natural number: digits, without a leading zero unless the
      number is 0. */
  predicate IsNatText(s: string)
  {
    |s| > 0 && AllDigits(s) && (|s| == 1 || s[0] != '0')
  }

  /** A text of that shape is the decimal text of its value: `toString` and `Number` are
      inverse on it. */
  lemma {:induction false} NatTextOfDigits(s: string)
    requires IsNatText(s)
    ensures NatText(ParseDigits(s)) == s
    decreases |s|
  {
    var last := s[|s| - 1];
    var d := DigitValue(last);
    DigitCharOfValue(last);
    if |s| == 1 {
      assert s[..0] == [];
      assert ParseDigits(s) == d;
    } else {
      var prefix := s[..|s| - 1];
      assert prefix[0] == s[0];
      NatTextOfDigits(prefix);
      var p := ParseDigits(prefix);
      assert p >= 1 by {
        if |prefix| == 1 {
          assert prefix[..0] == [] && p == DigitValue(prefix[0]);
        }
      }
      var n := p * 10 + d;
      assert n / 10 == p && n % 10 == d;
      assert NatText(n) == NatText(p) + [DigitChar(d)];
      assert s == prefix + [last];
    }
  }

  /** A non-zero multiple of a positive `b` is at least `b` away from zero. */
  lemma {:induction false} ProductBounds(k: int, b: int)
    requires b > 0
    ensures k >= 1 ==> k * b >= b
    ensures k <= -1 ==> k * b <= -b
    decreases if k < 0 then -k else k
  {
    if k > 1 {
      ProductBounds(k - 1, b);
      assert k * b == (k - 1) * b + b;
    } else if k < -1 {
      ProductBounds(k + 1, b);
      assert k * b == (k + 1) * b - b;
    }
  }

  /** A multiple of `b` leaves no remainder. */
  lemma MultipleHasNoRemainder(q: int, b: int)
    requires b > 0
    ensures (q * b) % b == 0
  {
    var d, r := (q * b) / b, (q * b) % b;
    assert q * b == d * b + r;
    assert r == (q - d) * b;
    ProductBounds(q - d, b);
  }

  /** Taking off the truncated remainder leaves a multiple of `b`, for either sign of `a`. */
  lemma TruncatedRemainderDivides(a: int, b: int)
    requires b > 0
    ensures a >= 0 ==> (a - a % b) % b == 0
    ensures a < 0 ==> (a + (-a) % b) % b == 0
  {
    if a >= 0 {
      assert a - a % b == (a / b) * b;
      MultipleHasNoRemainder(a / b, b);
    } else {
      var n := -a;
      assert n == (n / b) * b + n % b;
      assert a + n % b == (-(n / b)) * b;
      MultipleHasNoRemainder(-(n / b), b);
    }
  }

  /** JavaScript's `a % b` for a positive `b`: the remainder takes the sign of `a`. */
  function JsRemainder(a: int, b: int): (r: int)
    requires b > 0
    ensures a >= 0 ==> 0 <= r < b
    ensures a < 0 ==> -b < r <= 0
    ensures (a - r) % b == 0
  {
    TruncatedRemainderDivides(a, b);
    if a >= 0 then a % b else -((-a) % b)
  }

  /** `s.padStart(n, c)`: `s` prefixed with copies of `c` up to length `n`. */
  function PadStart(s: string, n: nat, c: char): (r: string)
    ensures |r| == if |s| >= n then |s| else n
  {
    if |s| >= n then s else seq(n - |s|, _ => c) + s
  }

  /** The padded text ends with `s` and has only `c` in front of it. */
  lemma PadStartFacts(s: string, n: nat, c: char)
    ensures var r := PadStart(s, n, c);
      (forall i :: 0 <= i < |s| ==> r[|r| - |s| + i] == s[i])
      && (forall i :: 0 <= i < |r| - |s| ==> r[i] == c)
  {
  }

  /** Two-digit zero-padded decimal text (`n.toString().padStart(2, '0')`). */
  function Pad2(n: nat): string
  {
    PadStart(NatText(n), 2, '0')
  }

  /** Below 100, the padded text is exactly the tens digit followed by the units digit. */
  lemma Pad2Digits(n: nat)
    requires n < 100
    ensures Pad2(n) == [DigitChar(n / 10), DigitChar(n % 10)]
  {
    if n >= 10 {
      assert NatText(n / 10) == [DigitChar(n / 10)];
    }
  }

  /** Below 100, the padded text reads back as the number. */
  lemma ParsePad2(n: nat)
    requires n < 100
    ensures AllDigits(Pad2(n)) && |Pad2(n)| == 2 && ParseDigits(Pad2(n)) == n
  {
    Pad2Digits(n);
    var t := [DigitChar(n / 10), DigitChar(n % 10)];
    assert t[..1] == [DigitChar(n / 10)];
    assert t[..1][..0] == [];
    assert ParseDigits(t[..1]) == n / 10;
    assert ParseDigits(t) == (n / 10) * 10 + n % 10;
  }

  /** A two-digit string reads as ten times its first digit plus its second. */
  lemma ParseTwoDigits(s: string)
    requires |s| == 2 && AllDigits(s)
    ensures ParseDigits(s) == DigitValue(s[0]) * 10 + DigitValue(s[1])
  {
    var a := DigitValue(s[0]);
    assert s[..1][..0] == [] && s[..1][0] == s[0];
    assert ParseDigits(s[..1]) == a;
  }

  /** The padded text of `10 * a + b` is the digit of `a` followed by the digit of `b`. */
  lemma PadTwoDigits(a: nat, b: nat)
    requires a < 10 && b < 10
    ensures Pad2(a * 10 + b) == [DigitChar(a), DigitChar(b)]
  {
    var n := a * 10 + b;
    if a == 0 {
      assert NatText(n) == [DigitChar(b)];
      assert DigitChar(0) == '0';
    } else {
      assert n / 10 == a && n % 10 == b;
      assert NatText(n) == NatText(a) + [DigitChar(b)];
    }
  }

  /** `xs.join(sep)`. */
  function Join(xs: seq<string>, sep: string): (r: string)
    ensures |xs| == 0 ==> r == ""
    ensures |xs| > 0 ==> |r| >= |xs[0]| && r[..|xs[0]|] == xs[0]
  {
    if |xs| == 0 then ""
    else if |xs| == 1 then xs[0]
    else xs[0] + sep + Join(xs[1..], sep)
  }

  /** The characters `String.prototype.trim` strips: white space and line terminators. */
  predicate IsWhitespace(c: char)
  {
    c == ' ' || c == '\t' || c == '\n' || c == '\r' || c == '\U{000B}' || c == '\U{000C}'
    || c == '\U{00A0}' || c == '\U{1680}' || ('\U{2000}' <= c <= '\U{200A}')
    || c == '\U{2028}' || c == '\U{2029}' || c == '\U{202F}' || c == '\U{205F}'
    || c == '\U{3000}' || c == '\U{FEFF}'
  }

  /** `s` without its longest prefix of characters satisfying `p`. */
  function DropFront(s: string, p: char -> bool): (r: string)
    ensures |r| <= |s| && r == s[|s| - |r|..]
    ensures |r| > 0 ==> !p(r[0])
    ensures forall i :: 0 <= i < |s| - |r| ==> p(s[i])
  {
    if |s| > 0 && p(s[0]) then
      var r := DropFront(s[1..], p);
      assert forall i :: 1 <= i < |s| - |r| ==> s[i] == s[1..][i - 1];
      assert s[1..][|s| - 1 - |r|..] == s[|s| - |r|..];
      r
    else s
  }

  /** `s` without its longest suffix of characters satisfying `p`. */
  function DropBack(s: string, p: char -> bool): (r: string)
    ensures |r| <= |s| && r == s[..|r|]
    ensures |r| > 0 ==> !p(r[|r| - 1])
    ensures forall i :: |r| <= i < |s| ==> p(s[i])
  {
    if |s| > 0 && p(s[|s| - 1]) then
      var r := DropBack(s[..|s| - 1], p);
      assert forall i :: |r| <= i < |s| - 1 ==> s[i] == s[..|s| - 1][i];
      assert s[..|s| - 1][..|r|] == s[..|r|];
      r
    else s
  }

  /** `s` without leading white space. */
  function TrimStart(s: string): (r: string)
    ensures |r| <= |s| && r == s[|s| - |r|..]
    ensures |r| > 0 ==> !IsWhitespace(r[0])
    ensures forall i :: 0 <= i < |s| - |r| ==> IsWhitespace(s[i])
  {
    DropFront(s, IsWhitespace)
  }

  /** `s` without trailing white space. */
  function TrimEnd(s: string): (r: string)
    ensures |r| <= |s| && r == s[..|r|]
    ensures |r| > 0 ==> !IsWhitespace(r[|r| - 1])
    ensures forall i :: |r| <= i < |s| ==> IsWhitespace(s[i])
  {
    DropBack(s, IsWhitespace)
  }

  /** `s.trim()`: `s` without leading and trailing white space. */
  function Trim(s: string): (r: string)
  {
    TrimEnd(TrimStart(s))
  }

  /** Where the trimmed string sits in the input: from the first kept character to just past
      the last, with only white space outside. */
  lemma TrimBounds(s: string)
    ensures var i := |s| - |TrimStart(s)|;
      (i + |Trim(s)| <= |s| && Trim(s) == s[i..i + |Trim(s)|]
       && (forall k :: 0 <= k < i ==> IsWhitespace(s[k]))
       && (forall k :: i + |Trim(s)| <= k < |s| ==> IsWhitespace(s[k])))
  {
    var t := TrimStart(s);
    Window(s, t, TrimEnd(t), IsWhitespace);
  }

  /** Cutting a run of `p` characters off the front of `s`, giving `t`, and then off the back of
      `t`, giving `r`, leaves `r` as a slice of `s` with only `p` characters around it. */
  lemma Window(s: string, t: string, r: string, p: char -> bool)
    requires |t| <= |s| && t == s[|s| - |t|..]
    requires forall k :: 0 <= k < |s| - |t| ==> p(s[k])
    requires |r| <= |t| && r == t[..|r|]
    requires forall k :: |r| <= k < |t| ==> p(t[k])
    ensures var i := |s| - |t|;
      (i + |r| <= |s| && r == s[i..i + |r|]
       && (forall k :: 0 <= k < i ==> p(s[k]))
       && (forall k :: i + |r| <= k < |s| ==> p(s[k])))
  {
    var i := |s| - |t|;
    forall k | i + |r| <= k < |s|
      ensures p(s[k])
    {
      assert s[k] == t[k - i];
    }
  }

  /** The trimmed string is a contiguous piece of the input that neither begins nor ends in
      white space, and it is empty exactly when the input is all white space. */
  lemma TrimSpec(s: string)
    ensures exists i, j ::
      (0 <= i <= j <= |s| && Trim(s) == s[i..j]
       && (forall k :: 0 <= k < i ==> IsWhitespace(s[k]))
       && (forall k :: j <= k < |s| ==> IsWhitespace(s[k])))
    ensures |Trim(s)| > 0 ==> !IsWhitespace(Trim(s)[0]) && !IsWhitespace(Trim(s)[|Trim(s)| - 1])
    ensures |Trim(s)| == 0 <==> forall k :: 0 <= k < |s| ==> IsWhitespace(s[k])
  {
    var t := TrimStart(s);
    var r := TrimEnd(t);
    var i := |s| - |t|;
    TrimBounds(s);
    assert r == Trim(s);
    if |r| > 0 {
      assert r[0] == t[0];
    } else {
      assert |t| == 0;
    }
  }

  /** The part of `s` before the first `c` (all of `s` when there is none). */
  function Before(s: string, c: char): (r: string)
    ensures c !in r
    ensures |r| <= |s| && r == s[..|r|]
  {
    if |s| == 0 || s[0] == c then ""
    else [s[0]] + Before(s[1..], c)
  }

  /** The part of `s` after the first `c` (empty when there is none). */
  function After(s: string, c: char): (r: string)
    ensures |r| <= |s|
    ensures c in s ==> |r| < |s|
  {
    if |s| == 0 then ""
    else if s[0] == c then s[1..]
    else After(s[1..], c)
  }

  /** A text holding `c` is its part before the first `c`, that `c`, and its part after. */
  lemma {:induction false} BeforeAfter(s: string, c: char)
    requires c in s
    ensures s == Before(s, c) + [c] + After(s, c)
    decreases |s|
  {
    if s[0] != c {
      assert c in s[1..] by {
        var k :| 0 <= k < |s| && s[k] == c;
        assert s[1..][k - 1] == c;
      }
      BeforeAfter(s[1..], c);
      assert s == [s[0]] + s[1..];
    }
  }

  /** Splitting `x + [c] + y` at its first `c` gives back `x` and `y` when `x` has no `c`. */
  lemma {:induction false} SplitAtFirst(x: string, c: char, y: string)
    requires c !in x
    ensures Before(x + [c] + y, c) == x
    ensures After(x + [c] + y, c) == y
    decreases |x|
  {
    var s := x + [c] + y;
    if |x| == 0 {
      assert s == [c] + y;
    } else {
      assert s[1..] == x[1..] + [c] + y;
      SplitAtFirst(x[1..], c, y);
      assert [x[0]] + x[1..] == x;
    }
  }

  /** The pieces of a ", "-separated list: the text is cut at every ", " and nowhere else.
      A text without ", " is a single piece. */
  function SplitList(s: string): (r: seq<string>)
    ensures |r| > 0
    decreases |s|
  {
    if |s| == 0 then [""]
    else if |s| >= 2 && s[0] == ',' && s[1] == ' ' then [""] + SplitList(s[2..])
    else
      var rest := SplitList(s[1..]);
      [[s[0]] + rest[0]] + rest[1..]
  }

  /** Whether `s` holds ", " nowhere. */
  predicate NoListSeparator(s: string)
  {
    forall i :: 0 <= i < |s| - 1 ==> s[i] != ',' || s[i + 1] != ' '
  }

  /** A text without ", " is one piece. */
  lemma {:induction false} SplitWithoutSeparator(s: string)
    requires NoListSeparator(s)
    ensures SplitList(s) == [s]
    decreases |s|
  {
    if |s| > 0 {
      assert NoListSeparator(s[1..]) by {
        forall i | 0 <= i < |s[1..]| - 1 ensures s[1..][i] != ',' || s[1..][i + 1] != ' ' {
          assert s[1..][i] == s[i + 1] && s[1..][i + 1] == s[i + 2];
        }
      }
      SplitWithoutSeparator(s[1..]);
      assert [s[0]] + s[1..] == s;
    }
  }

  /** One piece without ',' in front of ", " splits off as the first piece. */
  lemma {:induction false} SplitListStep(x: string, y: string)
    requires ',' !in x
    ensures SplitList(x + ", " + y) == [x] + SplitList(y)
    decreases |x|
  {
    var s := x + ", " + y;
    if |x| == 0 {
      assert s == ", " + y && s[2..] == y;
    } else {
      assert s[1..] == x[1..] + ", " + y;
      SplitListStep(x[1..], y);
      assert [x[0]] + x[1..] == x;
    }
  }

  /** `Join` with ", " over two or more pieces, taken apart at the first piece. */
  lemma JoinCons(p: string, rest: seq<string>)
    requires |rest| > 0
    ensures Join([p] + rest, ", ") == p + ", " + Join(rest, ", ")
  {
    assert ([p] + rest)[1..] == rest;
  }

  /** Putting a character in front of the first piece puts it in front of the joined text. */
  lemma {:induction false} JoinFrontChar(c: char, pieces: seq<string>)
    requires |pieces| > 0
    ensures Join([[c] + pieces[0]] + pieces[1..], ", ") == [c] + Join(pieces, ", ")
  {
    var first, tail := pieces[0], pieces[1..];
    if |pieces| == 1 {
      assert [[c] + first] + tail == [[c] + first];
      assert Join(pieces, ", ") == first;
    } else {
      assert pieces == [first] + tail;
      JoinCons(first, tail);
      JoinCons([c] + first, tail);
      var rest := Join(tail, ", ");
      assert ([c] + first) + ", " + rest == [c] + (first + ", " + rest);
    }
  }

  /** Joining the pieces of any text with ", " gives the text back: the pieces lose nothing. */
  lemma {:induction false} JoinSplit(s: string)
    ensures Join(SplitList(s), ", ") == s
    decreases |s|
  {
    if |s| == 0 {
    } else if |s| >= 2 && s[0] == ',' && s[1] == ' ' {
      JoinSplit(s[2..]);
      JoinCons("", SplitList(s[2..]));
      assert s == "" + ", " + s[2..];
    } else {
      JoinSplit(s[1..]);
      JoinFrontChar(s[0], SplitList(s[1..]));
      assert s == [s[0]] + s[1..];
    }
  }

  /** Joining pieces that hold no ',' with ", " and splitting the result gives the pieces back. */
  lemma {:induction false} SplitJoin(xs: seq<string>)
    requires |xs| > 0
    requires forall i :: 0 <= i < |xs| ==> ',' !in xs[i]
    ensures SplitList(Join(xs, ", ")) == xs
    decreases |xs|
  {
    if |xs| == 1 {
      assert Join(xs, ", ") == xs[0];
      SplitWithoutSeparator(xs[0]);
    } else {
      forall i | 0 <= i < |xs[1..]| ensures ',' !in xs[1..][i] {
        assert xs[1..][i] == xs[i + 1];
      }
      SplitJoin(xs[1..]);
      SplitListStep(xs[0], Join(xs[1..], ", "));
      assert xs == [xs[0]] + xs[1..];
    }
  }
}

=== FILE: validation.dfy ===
/** `validateSchedule`: four independent rules, each with its own message, reported in a
    fixed order. */
module Validation {
  import opened Interfaces
  import opened Text
  import opened Clock
  import opened Sequences

  const NameRequired := "Schedule name is required"
  const EndAfterStart := "End time must be after start time"
  const DayRequired := "At least one day must be selected"
  const TaskRequired := "Schedule must have at least one task or mandatory task"

  /** Every message, in the order the rules run. */
  const AllMessages := [NameRequired, EndAfterStart, DayRequired, TaskRequired]

  /** The conditions under which a schedule may be saved, stated independently of the messages. */
  predicate IsWellFormed(s: Schedule)
  {
    Trim(s.name) != ""
    && IsTimeRangeValid(s.startTime, s.endTime)
    && |s.activeDays| > 0
    && (|s.tasks| > 0 || |s.mandatoryTasks| > 0)
  }

  /** The message `msg` when `failed` holds, nothing otherwise (one conditional `push`). */
  function Report(failed: bool, msg: string): seq<string>
  {
    if failed then [msg] else []
  }

  /** `validateSchedule`. Each message is reported exactly when its own rule fails, whatever
      the other rules say; the messages come in rule order, each at most once; and there are
      none exactly when the schedule is well formed. */
  function ValidateSchedule(s: Schedule): (errors: seq<string>)
    ensures NameRequired in errors <==> Trim(s.name) == ""
    ensures EndAfterStart in errors <==> !IsTimeRangeValid(s.startTime, s.endTime)
    ensures DayRequired in errors <==> |s.activeDays| == 0
    ensures TaskRequired in errors <==> |s.tasks| == 0 && |s.mandatoryTasks| == 0
    ensures IsSubsequence(errors, AllMessages)
    ensures |errors| == 0 <==> IsWellFormed(s)
  {
    var nameMissing := Trim(s.name) == "";
    var timesWrong := !IsTimeRangeValid(s.startTime, s.endTime);
    var noDays := |s.activeDays| == 0;
    var noTasks := |s.tasks| == 0 && |s.mandatoryTasks| == 0;
    ReportContents(nameMissing, timesWrong, noDays, noTasks);
    Report(nameMissing, NameRequired) + Report(timesWrong, EndAfterStart)
      + Report(noDays, DayRequired) + Report(noTasks, TaskRequired)
  }

  /** The reports of four rules hold each message exactly when its rule failed, in rule order,
      and are empty exactly when no rule failed. */
  lemma ReportContents(b1: bool, b2: bool, b3: bool, b4: bool)
    ensures var e := Report(b1, NameRequired) + Report(b2, EndAfterStart)
      + Report(b3, DayRequired) + Report(b4, TaskRequired);
      (NameRequired in e <==> b1) && (EndAfterStart in e <==> b2)
      && (DayRequired in e <==> b3) && (TaskRequired in e <==> b4)
      && (|e| == 0 <==> !b1 && !b2 && !b3 && !b4)
      && IsSubsequence(e, AllMessages)
  {
    MessagesDistinct();
    MessagesInOrder(b1, b2, b3, b4);
  }

  /** The four messages are pairwise different. */
  lemma MessagesDistinct()
    ensures NameRequired != EndAfterStart && NameRequired != DayRequired && NameRequired != TaskRequired
    ensures EndAfterStart != DayRequired && EndAfterStart != TaskRequired
    ensures DayRequired != TaskRequired
  {
    assert |NameRequired| == 25 && |EndAfterStart| == 33 && |DayRequired| == 33 && |TaskRequired| == 54;
    assert EndAfterStart[0] == 'E' && DayRequired[0] == 'A';
  }

  /** Four optional reports, one per rule, put together in rule order form a subsequence of
      all the messages. */
  lemma MessagesInOrder(b1: bool, b2: bool, b3: bool, b4: bool)
    ensures IsSubsequence(Report(b1, NameRequired) + Report(b2, EndAfterStart)
      + Report(b3, DayRequired) + Report(b4, TaskRequired), AllMessages)
  {
    MessagesDistinct();
    var r1, r2, r3, r4 := Report(b1, NameRequired), Report(b2, EndAfterStart), Report(b3, DayRequired), Report(b4, TaskRequired);
    var tail3 := r3 + r4;
    var tail2 := r2 + tail3;
    assert IsSubsequence(r4, [TaskRequired]);
    SubsequenceOptionalHead(b3, DayRequired, r4, [TaskRequired]);
    SubsequenceOptionalHead(b2, EndAfterStart, tail3, [DayRequired, TaskRequired]);
    SubsequenceOptionalHead(b1, NameRequired, tail2, [EndAfterStart, DayRequired, TaskRequired]);
    assert r1 + r2 + r3 + r4 == r1 + tail2;
  }

  /** Validation looks only at the name, the times, the days and the two task lists: schedules
      that agree on those get the same messages. */
  lemma ValidationReadsOnlyRuleFields(s: Schedule, t: Schedule)
    requires s.name == t.name && s.startTime == t.startTime && s.endTime == t.endTime
    requires |s.activeDays| == |t.activeDays|
    requires |s.tasks| == |t.tasks| && |s.mandatoryTasks| == |t.mandatoryTasks|
    ensures ValidateSchedule(s) == ValidateSchedule(t)
  {
  }

  /** A schedule with no name, an empty time range, no days and no tasks gets all four
      messages, in rule order. */
  lemma AllRulesFail(s: Schedule)
    requires Trim(s.name) == "" && s.startTime == s.endTime
    requires |s.activeDays| == 0 && |s.tasks| == 0 && |s.mandatoryTasks| == 0
    ensures ValidateSchedule(s) == AllMessages
  {
    EmptyTimeRangeInvalid(s.startTime);
  }
}

=== FILE: weekly_events.dfy ===
/** The calendar-events page: events grouped by the date part of their start, and the dates
    listed in ascending string order, one column each. */
module WeeklyEvents {
  import opened Sequences

  /** The start of a calendar event; only its ISO date-time text is read. */
  datatype EventStart = EventStart(dateTime: string)

  /** A calendar event as the page reads it. */
  datatype Event = Event(id: string, summary: string, start: EventStart)

  /** `start.dateTime.slice(0, 10)`: the "YYYY-MM-DD" part of an ISO date-time, or the whole
      text when it is shorter. */
  function DateKey(e: Event): (k: string)
    ensures k <= e.start.dateTime
    ensures |k| == if |e.start.dateTime| < 10 then |e.start.dateTime| else 10
  {
    var s := e.start.dateTime;
    if |s| <= 10 then s else s[..10]
  }

  /** The filter predicate for events on date `k`. */
  function OnDate(k: string): Event -> bool
  {
    (e: Event) => DateKey(e) == k
  }

  /** Events by date key. */
  type Groups = map<string, seq<Event>>

  /** Appending an event extends the events of its own date and of no other. */
  lemma OnDateSnoc(events: seq<Event>, e: Event)
    ensures forall k ::
      Filter(events + [e], OnDate(k)) == Filter(events, OnDate(k)) + (if DateKey(e) == k then [e] else [])
  {
    forall k
      ensures Filter(events + [e], OnDate(k))
        == Filter(events, OnDate(k)) + (if DateKey(e) == k then [e] else [])
    {
      FilterSnoc(events, e, OnDate(k));
    }
  }

  /** The events grouped under `k`; none when `k` is not a key. */
  function GroupOf(groups: Groups, k: string): seq<Event>
  {
    if k in groups then groups[k] else []
  }

  /** One step of the `reduce`: `e` pushed onto the group of its date, the group started when
      the date is new. */
  function Push(acc: Groups, e: Event): (r: Groups)
    ensures forall k :: GroupOf(r, k) == GroupOf(acc, k) + (if DateKey(e) == k then [e] else [])
    ensures forall k :: k in r <==> k in acc || k == DateKey(e)
  {
    acc[DateKey(e) := GroupOf(acc, DateKey(e)) + [e]]
  }

  /** The `reduce` from the accumulator `acc` over `events`, first event first. Each group
      gains the events of its date in input order, and a key appears exactly when it was
      already there or some event has that date. */
  function GroupFrom(acc: Groups, events: seq<Event>): (r: Groups)
    ensures forall k :: GroupOf(r, k) == GroupOf(acc, k) + Filter(events, OnDate(k))
    ensures forall k :: k in r <==> k in acc || |Filter(events, OnDate(k))| > 0
    decreases |events|
  {
    if |events| == 0 then acc
    else
      var r := GroupFrom(Push(acc, events[0]), events[1..]);
      PushThenGroup(acc, events, r);
      r
  }

  /** The step of `GroupFrom`'s contract: what the rest of the events add after the first one
      was pushed is what all the events add. */
  lemma PushThenGroup(acc: Groups, events: seq<Event>, r: Groups)
    requires |events| > 0
    requires forall k :: GroupOf(r, k) == GroupOf(Push(acc, events[0]), k) + Filter(events[1..], OnDate(k))
    requires forall k :: k in r <==> k in Push(acc, events[0]) || |Filter(events[1..], OnDate(k))| > 0
    ensures forall k :: GroupOf(r, k) == GroupOf(acc, k) + Filter(events, OnDate(k))
    ensures forall k :: k in r <==> k in acc || |Filter(events, OnDate(k))| > 0
  {
    forall k
      ensures GroupOf(r, k) == GroupOf(acc, k) + Filter(events, OnDate(k))
      ensures k in r <==> k in acc || |Filter(events, OnDate(k))| > 0
    {
      PushThenGroupAt(acc, events, r, k);
      PushThenKeyAt(acc, events, r, k);
    }
  }

  /** The events `events` add to one date's group: those of the first event, then those of
      the rest. */
  lemma FilterHead(events: seq<Event>, k: string)
    requires |events| > 0
    ensures Filter(events, OnDate(k))
      == (if DateKey(events[0]) == k then [events[0]] else []) + Filter(events[1..], OnDate(k))
  {
  }

  /** `PushThenGroup`'s group contents for one date. */
  lemma PushThenGroupAt(acc: Groups, events: seq<Event>, r: Groups, k: string)
    requires |events| > 0
    requires GroupOf(r, k) == GroupOf(Push(acc, events[0]), k) + Filter(events[1..], OnDate(k))
    ensures GroupOf(r, k) == GroupOf(acc, k) + Filter(events, OnDate(k))
  {
    var head := if DateKey(events[0]) == k then [events[0]] else [];
    var tail := Filter(events[1..], OnDate(k));
    FilterHead(events, k);
    ConcatAssociates(GroupOf(acc, k), head, tail);
  }

  /** `PushThenGroup`'s keys for one date. */
  lemma PushThenKeyAt(acc: Groups, events: seq<Event>, r: Groups, k: string)
    requires |events| > 0
    requires k in r <==> k in Push(acc, events[0]) || |Filter(events[1..], OnDate(k))| > 0
    ensures k in r <==> k in acc || |Filter(events, OnDate(k))| > 0
  {
    FilterHead(events, k);
  }

  /** `groupEventsByDay`: the `reduce` from an empty record. Each date's group holds the events
      of that date in input order, and there is a group exactly for the dates that occur. */
  function GroupEventsByDay(events: seq<Event>): (r: Groups)
    ensures forall k :: GroupOf(r, k) == Filter(events, OnDate(k))
    ensures forall k :: k in r <==> |Filter(events, OnDate(k))| > 0
  {
    var r := GroupFrom(map[], events);
    assert forall k :: GroupOf(map[], k) == [];
    r
  }

  /** The keys are exactly the events' dates and no group is empty; every event sits in the
      group of its own date, and a group holds only events of its date, in input order. */
  lemma GroupsPartitionEvents(events: seq<Event>)
    ensures var r := GroupEventsByDay(events);
      (forall k :: k in r <==> exists e :: e in events && DateKey(e) == k)
      && (forall k :: k in r ==> |GroupOf(r, k)| > 0 && IsSubsequence(GroupOf(r, k), events))
      && (forall e :: e in events ==> DateKey(e) in r && e in GroupOf(r, DateKey(e)))
      && (forall k, e :: e in GroupOf(r, k) ==> DateKey(e) == k)
  {
    var r := GroupEventsByDay(events);
    forall k
      ensures k in r <==> exists e :: e in events && DateKey(e) == k
    {
      var g := Filter(events, OnDate(k));
      if k in r {
        assert g[0] in g;
      }
      if exists e :: e in events && DateKey(e) == k {
        var e :| e in events && DateKey(e) == k;
        assert e in g;
      }
    }
    forall e | e in events
      ensures e in GroupOf(r, DateKey(e))
    {
      assert e in Filter(events, OnDate(DateKey(e)));
    }
  }

  /** The number of events across the groups named by `keys`; a missing key counts none. */
  function GroupSizes(groups: Groups, keys: seq<string>): nat
    decreases |keys|
  {
    if |keys| == 0 then 0
    else (if keys[0] in groups then |groups[keys[0]]| else 0) + GroupSizes(groups, keys[1..])
  }

  /** The number of events on the dates named by `keys`. */
  function DateCounts(events: seq<Event>, keys: seq<string>): nat
    decreases |keys|
  {
    if |keys| == 0 then 0 else |Filter(events, OnDate(keys[0]))| + DateCounts(events, keys[1..])
  }

  /** How many times `x` occurs in `xs`. */
  function Occurrences(xs: seq<string>, x: string): nat
    decreases |xs|
  {
    if |xs| == 0 then 0 else (if xs[0] == x then 1 else 0) + Occurrences(xs[1..], x)
  }

  /** A member of a list without repeats occurs in it once. */
  lemma {:induction false} OccursOnce(xs: seq<string>, x: string)
    requires Distinct(xs) && x in xs
    ensures Occurrences(xs, x) == 1
    decreases |xs|
  {
    if xs[0] == x {
      NotOccurring(xs[1..], x);
    } else {
      assert x in xs[1..];
      OccursOnce(xs[1..], x);
    }
  }

  /** A string that is not a member occurs in the list no times. */
  lemma {:induction false} NotOccurring(xs: seq<string>, x: string)
    requires x !in xs
    ensures Occurrences(xs, x) == 0
    decreases |xs|
  {
    if |xs| > 0 {
      NotOccurring(xs[1..], x);
    }
  }

  /** Appending an event adds one to the count of each listing of its date. */
  lemma {:induction false} DateCountsSnoc(events: seq<Event>, e: Event, keys: seq<string>)
    ensures DateCounts(events + [e], keys) == DateCounts(events, keys) + Occurrences(keys, DateKey(e))
    decreases |keys|
  {
    if |keys| > 0 {
      OnDateSnoc(events, e);
      DateCountsSnoc(events, e, keys[1..]);
    }
  }

  /** Over a list naming every date once, the counts of the dates add up to all the events. */
  lemma {:induction false} DateCountsCoverEvents(events: seq<Event>, keys: seq<string>)
    requires Distinct(keys)
    requires forall e :: e in events ==> DateKey(e) in keys
    ensures DateCounts(events, keys) == |events|
    decreases |events|
  {
    if |events| == 0 {
      EmptyDateCounts(keys);
    } else {
      var init, e := events[..|events| - 1], events[|events| - 1];
      assert events == init + [e];
      DateCountsCoverEvents(init, keys);
      DateCountsSnoc(init, e, keys);
      OccursOnce(keys, DateKey(e));
    }
  }

  /** No events count nothing on any date. */
  lemma {:induction false} EmptyDateCounts(keys: seq<string>)
    ensures DateCounts([], keys) == 0
    decreases |keys|
  {
    if |keys| > 0 {
      EmptyDateCounts(keys[1..]);
    }
  }

  /** The group sizes are the date counts. */
  lemma {:induction false} GroupSizesAreDateCounts(events: seq<Event>, keys: seq<string>)
    ensures GroupSizes(GroupEventsByDay(events), keys) == DateCounts(events, keys)
    decreases |keys|
  {
    if |keys| > 0 {
      var r, k := GroupEventsByDay(events), keys[0];
      GroupSizesAreDateCounts(events, keys[1..]);
      assert GroupOf(r, k) == Filter(events, OnDate(k));
    }
  }

  /** The grouping is a partition: over any list naming each date once, the group sizes add up
      to the number of events. */
  lemma GroupSizesSumToCount(events: seq<Event>, keys: seq<string>)
    requires Distinct(keys)
    requires forall k :: k in keys <==> k in GroupEventsByDay(events)
    ensures GroupSizes(GroupEventsByDay(events), keys) == |events|
  {
    GroupsPartitionEvents(events);
    GroupSizesAreDateCounts(events, keys);
    DateCountsCoverEvents(events, keys);
  }

  /** `Object.keys` of the grouping: the dates in the order they first occur. */
  function DateKeys(events: seq<Event>): (r: seq<string>)
    ensures Distinct(r)
    ensures forall k :: k in r <==> exists e :: e in events && DateKey(e) == k
    decreases |events|
  {
    if |events| == 0 then []
    else
      var init, e := events[..|events| - 1], events[|events| - 1];
      var ks := DateKeys(init);
      assert forall x :: x in events <==> x in init || x == e;
      if DateKey(e) in ks then ks else ks + [DateKey(e)]
  }

  /** The default order of `sort()` on strings: a proper prefix comes first, otherwise the first
      character that differs decides. */
  predicate LexLess(a: string, b: string)
    decreases |a|
  {
    if |a| == 0 then |b| > 0
    else if |b| == 0 then false
    else if a[0] != b[0] then a[0] < b[0]
    else LexLess(a[1..], b[1..])
  }

  /** No string comes before itself, and of two strings at most one comes first. */
  lemma {:induction false} LexLessAsymmetric(a: string, b: string)
    ensures LexLess(a, b) ==> !LexLess(b, a)
    decreases |a|
  {
    if |a| > 0 && |b| > 0 && a[0] == b[0] {
      LexLessAsymmetric(a[1..], b[1..]);
    }
  }

  /** Of two different strings one comes first. */
  lemma {:induction false} LexLessTotal(a: string, b: string)
    ensures a == b || LexLess(a, b) || LexLess(b, a)
    decreases |a|
  {
    if |a| > 0 && |b| > 0 && a[0] == b[0] {
      LexLessTotal(a[1..], b[1..]);
      if a[1..] == b[1..] {
        assert a == [a[0]] + a[1..] && b == [b[0]] + b[1..];
      }
    }
  }

  /** The order is transitive. */
  lemma {:induction false} LexLessTransitive(a: string, b: string, c: string)
    requires LexLess(a, b) && LexLess(b, c)
    ensures LexLess(a, c)
    decreases |a|
  {
    if |a| > 0 && a[0] == b[0] && b[0] == c[0] {
      LexLessTransitive(a[1..], b[1..], c[1..]);
    }
  }

  /** Places `x` in a strictly ascending list, leaving it as it is when `x` is already there. */
  function Insert(x: string, xs: seq<string>): (r: seq<string>)
    requires StrictlySorted(xs, LexLess)
    ensures StrictlySorted(r, LexLess)
    ensures forall y :: y in r <==> y == x || y in xs
    decreases |xs|
  {
    if |xs| == 0 then [x]
    else if x == xs[0] then xs
    else if LexLess(x, xs[0]) then
      assert forall j :: 1 <= j < |xs| ==> LexLess(x, xs[j]) by {
        forall j | 1 <= j < |xs|
          ensures LexLess(x, xs[j])
        {
          LexLessTransitive(x, xs[0], xs[j]);
        }
      }
      [x] + xs
    else
      LexLessTotal(x, xs[0]);
      var rest := Insert(x, xs[1..]);
      assert forall y :: y in rest ==> LexLess(xs[0], y) by {
        forall y | y in rest
          ensures LexLess(xs[0], y)
        {
          if y != x {
            var j :| 0 <= j < |xs[1..]| && xs[1..][j] == y;
            assert xs[j + 1] == y;
          }
        }
      }
      [xs[0]] + rest
  }

  /** Insertion sort into strictly ascending order, dropping repeats. */
  function Sort(xs: seq<string>): (r: seq<string>)
    ensures StrictlySorted(r, LexLess)
    ensures forall y :: y in r <==> y in xs
    decreases |xs|
  {
    if |xs| == 0 then []
    else
      var rest := Sort(xs[1..]);
      assert forall y :: y in xs <==> y == xs[0] || y in xs[1..];
      Insert(xs[0], rest)
  }

  /** `Object.keys(grouped).sort()`. */
  function SortedDates(events: seq<Event>): seq<string>
  {
    Sort(DateKeys(events))
  }

  /** The order is asymmetric on every pair of strings. */
  lemma LexLessIsAsymmetric()
    ensures forall a, b :: LexLess(a, b) ==> !LexLess(b, a)
  {
    forall a, b
      ensures LexLess(a, b) ==> !LexLess(b, a)
    {
      LexLessAsymmetric(a, b);
    }
  }

  /** The sorted dates are the grouping's keys, each once, in ascending order. */
  lemma SortedDatesAreTheKeys(events: seq<Event>)
    ensures var r := SortedDates(events);
      StrictlySorted(r, LexLess) && Distinct(r)
      && forall k :: k in r <==> k in GroupEventsByDay(events)
  {
    var r := SortedDates(events);
    GroupsPartitionEvents(events);
    forall i, j | 0 <= i < j < |r|
      ensures r[i] != r[j]
    {
      LexLessAsymmetric(r[i], r[j]);
    }
  }

  /** The sorted dates depend on the set of keys alone, not on the order in which the keys are
      enumerated: any strictly ascending list of the keys is the sorted list. */
  lemma SortedDatesUnique(events: seq<Event>, dates: seq<string>)
    requires StrictlySorted(dates, LexLess)
    requires forall k :: k in dates <==> k in GroupEventsByDay(events)
    ensures SortedDates(events) == dates
  {
    LexLessIsAsymmetric();
    SortedDatesAreTheKeys(events);
    SortedUnique(SortedDates(events), dates, LexLess);
  }

  /** The columns shown, date by date in order, hold all the events, each once. */
  lemma ColumnsHoldEveryEvent(events: seq<Event>)
    ensures GroupSizes(GroupEventsByDay(events), SortedDates(events)) == |events|
  {
    SortedDatesAreTheKeys(events);
    GroupSizesSumToCount(events, SortedDates(events));
  }
}
